=== FILE: README.md ===
# Earthquake dashboard: a Dafny model of its data pipeline

This project models the logic of a single-page earthquake dashboard. The
dashboard fetches the USGS "all earthquakes, past day" GeoJSON feed and shows
it in three places: a map with one circle marker per event, a sidebar list
and a statistics panel. A fixed legend explains the marker colours.

The model covers the parts of the program that hold logic:

- **The filter engine.** Events are filtered by minimum magnitude, by an
  optional maximum absolute depth, and by a case-insensitive place search.
- **The sidebar.** The list is a stable sort into descending time or
  magnitude order. Each filter input changes one field of the criteria. The
  list area is a spinner, an empty notice or one row per event.
- **The statistics panel.** It shows the event count, the number of events of
  magnitude 4.0 or more, and the strongest magnitude, a fold seeded with 0.
- **The display helpers.** These are the eight-bucket colour scale, the
  marker radius, the depth text and the relative "time ago" text.
- **The legend table.** Its colours are proved to agree with the colour scale.
- **The fetch hook.** It is a state machine over
  `(earthquakes, loading, error, lastUpdated)`. It has a mount fetch, a
  polling timer, and completions by success or by a thrown value.
- **The map markers and the selection focus.**
- **The page.** The page state is `autoRefresh`, the selected id and the
  filters. Every user action, timer tick and request completion is an
  `Action`, and a trace of actions is folded by `App.Run`. Rendering chooses
  between the error screen and the dashboard. Every consumer receives the one
  filtered list.

Magnitudes, depths and coordinates are `real`. Times are integer epoch
milliseconds. The clock (`Date.now()`), the HTTP response and `toFixed(1)` are
inputs of the model. Strings are `seq<char>`.

Three facts about the code shape the model:

- The code has no step that validates or normalises feed records:
  `response.data.features` is stored as it arrives
  (src/hooks/useEarthquakes.ts:19). The model keeps every record and drops
  none.
- Only the start of a fetch clears `error` (src/hooks/useEarthquakes.ts:15).
  A success leaves it as it is, which `UseEarthquakes.Finish` states.
- There is no Success or Failure state tag. `loading` and `error` are
  separate fields, in the code and in the model.

Three behaviours of the code follow from its text and are proved as such:

- An `Error` whose message is the empty string sets `error` to `""`, which is
  falsy. The dashboard stays on screen with no error shown
  (`App.EmptyErrorMessageKeepsDashboard`).
- With two fetches in flight, the first completion already clears `loading`
  (`UseEarthquakes.OverlapClearsLoadingEarly`). The completion that arrives
  last wins (`UseEarthquakes.LastCompletionWins`).
- The error screen unmounts the sidebar, so a sort choice made before an
  error is lost: the dashboard comes back sorted by time
  (`App.DashboardReturnsSortedByTime`, `App.SortChoiceLostAcrossError`).

## Model

| member | source | states |
|---|---|---|
| Types.Abs | src/hooks/useFilteredEarthquakes.ts:11 | `Math.abs` is non-negative and equals the value or its negation |
| Text.Lower | src/hooks/useFilteredEarthquakes.ts:12 | lower-casing keeps the length and lower-cases each character on its own |
| Text.LowerIdempotent | src/hooks/useFilteredEarthquakes.ts:12-18 | lower-casing twice is lower-casing once |
| Text.ContainsIffOccurs | src/hooks/useFilteredEarthquakes.ts:18 | `includes` is true exactly when the needle occurs at some offset of the text |
| Text.NatToString | src/utils/earthquakeUtils.ts:42-44 | the count in the relative-time text is a non-empty digit string with no leading zero |
| Text.ParseNatToString | src/utils/earthquakeUtils.ts:42-44 | the decimal rendering of a count reads back as the same count |
| Text.NatToStringInjective | src/utils/earthquakeUtils.ts:42-44 | different counts render differently |
| FilteredEarthquakes.Matches | src/hooks/useFilteredEarthquakes.ts:9-22 | a kept event meets the minimum magnitude and, when one is set, the maximum absolute depth; with no depth bound and no search term the magnitude test alone decides |
| FilteredEarthquakes.MatchesIffAllTests | src/hooks/useFilteredEarthquakes.ts:14-22 | the early-return predicate keeps an event exactly when it passes the magnitude, depth and search tests, so it excludes exactly the events that fail at least one |
| FilteredEarthquakes.Filter | src/hooks/useFilteredEarthquakes.ts:9-23 | the result is an order-preserving subsequence of the input; each matching event is kept as often as it occurs, and no other event is kept |
| FilteredEarthquakes.FilteredPassAllTests | src/hooks/useFilteredEarthquakes.ts:14-20 | a kept event has `mag >= minMagnitude`; its absolute depth is at most `maxDepth` when one is set; its lower-cased place contains the lower-cased term when the term is non-empty; and every input event passing all three is kept |
| FilteredEarthquakes.FilterIdempotent | src/hooks/useFilteredEarthquakes.ts:9-23 | filtering a filtered list with the same criteria returns it unchanged |
| FilteredEarthquakes.RaiseMinimumRefilters | src/hooks/useFilteredEarthquakes.ts:14 | with a higher minimum magnitude, the result is the previous result filtered again |
| FilteredEarthquakes.RaiseMinimumMonotone | src/hooks/useFilteredEarthquakes.ts:14 | raising the minimum magnitude yields a subsequence of the previous result |
| FilteredEarthquakes.SearchCaseInsensitive | src/hooks/useFilteredEarthquakes.ts:12-18 | two search terms that lower-case alike select the same events |
| FilteredEarthquakes.CaliforniaSearch | src/hooks/useFilteredEarthquakes.ts:18 | "california" is absent from "10km NW of Ridgecrest, CA" and present, ignoring case, in "Northern California" |
| FilteredEarthquakes.CaliforniaExample | src/hooks/useFilteredEarthquakes.ts:9-23 | with the default bounds, the search "california" keeps the Northern California event and drops the Ridgecrest one |
| Sidebar.BoundsRearrangement | src/components/Sidebar.tsx:45-50 | a key that bounds a list and one more event bounds every rearrangement of them |
| Sidebar.Insert | src/components/Sidebar.tsx:45-50 | inserting into a descending list keeps it descending and adds exactly the one event |
| Sidebar.SortBy | src/components/Sidebar.tsx:44-51 | the sorted copy is non-increasing in time or in magnitude, and is a permutation of the input |
| Sidebar.SortByMembers | src/components/Sidebar.tsx:45 | an event is in the sorted list exactly when it is in the input |
| Sidebar.InsertWithKey | src/components/Sidebar.tsx:45-50 | insertion puts the new event at the front of its run of equal keys and leaves every other run as it was |
| Sidebar.SortByStable | src/components/Sidebar.tsx:45 | events with equal keys keep their input order |
| Sidebar.DescendingStableUnique | src/components/Sidebar.tsx:45-50 | two descending lists with the same runs of equal keys are equal |
| Sidebar.SortByIsTheStableSort | src/components/Sidebar.tsx:44-51 | any descending list that keeps each run of equal keys in input order is the model's sort, so order plus stability determine the result |
| Sidebar.SearchChanged | src/components/Sidebar.tsx:100-102 | the search handler sets `searchTerm` and leaves the other two fields unchanged |
| Sidebar.MinMagnitudeChanged | src/components/Sidebar.tsx:118-122 | the slider handler sets `minMagnitude` and leaves the other two fields unchanged |
| Sidebar.LastUpdatedText | src/components/Sidebar.tsx:82-87 | the "Last updated" line appears exactly when a fetch has succeeded, and reads back as the age of that success: "Just now" under a minute, otherwise a text ending in " ago" |
| Sidebar.Rows | src/components/Sidebar.tsx:189-196 | one row per sorted event, in order, keyed by the event's id |
| Sidebar.ListView | src/components/Sidebar.tsx:174-189 | a spinner exactly when loading with no events; an empty notice exactly when not loading with no events; otherwise a list with one row per event |
| Sidebar.ListRowsAreSortedEvents | src/components/Sidebar.tsx:189-213 | the rows are those of a permutation of the events in descending key order, so by magnitude the shown magnitudes never increase |
| Analytics.CountSignificant | src/components/Analytics.tsx:12 | the count of magnitude-4.0 events is at most the list length, and it is positive exactly when such an event exists |
| Analytics.CountIsSignificantPositions | src/components/Analytics.tsx:12 | the count equals the number of positions holding an event of magnitude 4.0 or more |
| Analytics.Strongest | src/components/Analytics.tsx:13-16 | the fold is at least its seed and every magnitude, and equals the seed or one of the magnitudes |
| Analytics.ComputeStats | src/components/Analytics.tsx:10-19 | `total` is the length; `significant` is the number of positions with magnitude at least 4.0, positive exactly when such an event exists; `strongest` is non-negative, at least every magnitude, and 0 or one of them |
| Analytics.StrongestUnique | src/components/Analytics.tsx:13-16 | `strongest` is the one value that is `max(0, largest magnitude)` |
| Analytics.EmptyStats | src/components/Analytics.tsx:11-16 | an empty list gives total 0, significant 0 and strongest 0 |
| Analytics.NonPositiveStrongestIsZero | src/components/Analytics.tsx:13-15 | if no magnitude is positive, the seed 0 survives the strict comparison |
| Analytics.SignificantBoundsStrongest | src/components/Analytics.tsx:12-16 | a significant event makes `strongest` at least 4.0 |
| Analytics.CountSignificantAppend | src/components/Analytics.tsx:12 | the significant count of a concatenation is the sum of the counts |
| Analytics.CountSignificantPermutation | src/components/Analytics.tsx:12 | the significant count is the same for every reordering |
| Analytics.StatsPermutationInvariant | src/components/Analytics.tsx:10-19 | all three statistics are the same for every reordering of the list |
| Analytics.ExampleStats | src/components/Analytics.tsx:10-19 | magnitudes 3.2, 4.5 and 5.0 give total 3, significant 2 and strongest 5.0 |
| EarthquakeUtils.Bucket | src/utils/earthquakeUtils.ts:1-10 | the bucket is the highest threshold among 1 to 7 that is at most the magnitude, or 0 when there is none |
| EarthquakeUtils.MagnitudeColor | src/utils/earthquakeUtils.ts:1-10 | the colour is one of the eight palette colours, the one of the magnitude's bucket; below 1, negatives included, it is `#22c55e` |
| EarthquakeUtils.BucketUnique | src/utils/earthquakeUtils.ts:2-9 | exactly one bucket index satisfies the bucket bounds of a magnitude |
| EarthquakeUtils.BucketMonotone | src/utils/earthquakeUtils.ts:2-9 | a larger magnitude never gets a lower bucket |
| EarthquakeUtils.PaletteDistinct | src/utils/earthquakeUtils.ts:2-9 | the eight colours are pairwise distinct |
| EarthquakeUtils.ColorIdentifiesBucket | src/utils/earthquakeUtils.ts:1-10 | two magnitudes get the same colour exactly when they are in the same bucket |
| EarthquakeUtils.MagnitudeRadius | src/utils/earthquakeUtils.ts:12-16 | the magnitude is recovered from the radius as `(r - 5) / 3` |
| EarthquakeUtils.RadiusStrictlyIncreasing | src/utils/earthquakeUtils.ts:12-16 | the radius is 5 at magnitude 0 and grows strictly with the magnitude |
| EarthquakeUtils.FormatDepth | src/utils/earthquakeUtils.ts:30-32 | the depth text ends with " km" and before it is the formatted absolute depth |
| EarthquakeUtils.FormatDepthSymmetric | src/utils/earthquakeUtils.ts:30-32 | a depth and its negation give the same text |
| EarthquakeUtils.FloorMinutesToHours | src/utils/earthquakeUtils.ts:37-38 | flooring by 60000 and then by 60 is flooring once by an hour in milliseconds |
| EarthquakeUtils.FloorHoursToDays | src/utils/earthquakeUtils.ts:38-39 | flooring the hour count by 24 is flooring once by a day in milliseconds |
| EarthquakeUtils.RelativeAge | src/utils/earthquakeUtils.ts:34-44 | "just now" exactly when less than a minute elapsed, future times included; otherwise the unit whose range holds the elapsed time, with the floored count of that unit |
| EarthquakeUtils.AgeCountsInRange | src/utils/earthquakeUtils.ts:37-44 | from one minute on, exactly one unit fires, with a count of at least 1, under 60 minutes or under 24 hours |
| EarthquakeUtils.RelativeTime | src/utils/earthquakeUtils.ts:34-44 | the text is "Just now" under a minute and ends with " ago" otherwise |
| EarthquakeUtils.PluralIffCountNotOne | src/utils/earthquakeUtils.ts:42-44 | the unit word is plural exactly when the count is not 1 |
| EarthquakeUtils.DigitPrefixLength | src/utils/earthquakeUtils.ts:42-44 | the leading digits of a text end at its first non-digit |
| EarthquakeUtils.ParseUnitWordsInverse | src/utils/earthquakeUtils.ts:42-44 | the words after the count name their unit and plural form unambiguously |
| EarthquakeUtils.AgeTextRoundTrip | src/utils/earthquakeUtils.ts:41-44 | the age can be read back from its text, so different ages never share a text |
| Legend.RangeTextIsBucket | src/components/Legend.tsx:5-12 | each row's range text ("7.0+", "6.0-6.9", ..., "<1.0"), read as numbers with a one-decimal upper bound "a-b" taken to run up to but not including b + 0.1, names exactly the magnitudes of the colour bucket the row stands for |
| Legend.RowOfMagnitude | src/components/Legend.tsx:4-13 | every magnitude falls in exactly one row's range text (upper bounds "b" read as "below b + 0.1"), the row of its bucket, whose colour is the magnitude's colour |
| Legend.LegendAgreesWithColor | src/components/Legend.tsx:5-12 | each row's colour is `getMagnitudeColor` of every magnitude its range text names |
| Legend.LegendOrderedStrongestFirst | src/components/Legend.tsx:4-13 | eight rows, the strongest bucket first, the weakest last |
| Legend.ColorsDistinct | src/components/Legend.tsx:5-12 | the rows' colours are pairwise distinct |
| Legend.RangesDistinct | src/components/Legend.tsx:22-23 | the range texts used as list keys are pairwise distinct |
| UseEarthquakes.Begin | src/hooks/useEarthquakes.ts:14-15 | starting a fetch sets `loading`, clears `error` and keeps the list and `lastUpdated` |
| UseEarthquakes.Finish | src/hooks/useEarthquakes.ts:17-26 | every completion clears `loading`; success replaces the list and sets `lastUpdated` to now; failure keeps both and sets `error` to the message, or to the default text for a non-`Error` value |
| UseEarthquakes.PollingTimer | src/hooks/useEarthquakes.ts:33-38 | a timer exists exactly for a defined, positive interval, and runs at that interval |
| UseEarthquakes.StartFetch | src/hooks/useEarthquakes.ts:13-15 | a fetch start counts one more request in flight and keeps the timer |
| UseEarthquakes.Mount | src/hooks/useEarthquakes.ts:8-31 | mounting starts exactly one fetch, from the four initial values, with a timer only for a positive interval |
| UseEarthquakes.IntervalChangeReplacesTimer | src/hooks/useEarthquakes.ts:33-38 | a new interval replaces the old timer, whatever it was, and changes nothing else |
| UseEarthquakes.HookStep | src/hooks/useEarthquakes.ts:13-38 | a refresh starts a fetch with `loading` set and no error; a tick starts one exactly when a timer exists; a completion of an in-flight fetch clears `loading`, and one with nothing in flight changes nothing; only an interval change touches the timer; only a completion touches the list and `lastUpdated` |
| UseEarthquakes.MountEstablishesInvariant | src/hooks/useEarthquakes.ts:8-31 | the mounted hook satisfies the invariant: loading only with a fetch in flight, no error while loading, no data before a success |
| UseEarthquakes.HookStepPreservesInvariant | src/hooks/useEarthquakes.ts:13-38 | every refresh, tick, interval change and completion preserves that invariant |
| UseEarthquakes.FailureKeepsData | src/hooks/useEarthquakes.ts:21-25 | a failure keeps the list and the time of the last success |
| UseEarthquakes.LastCompletionWins | src/hooks/useEarthquakes.ts:17-20 | of two overlapping successes, the list of the last to complete is current |
| UseEarthquakes.OverlapClearsLoadingEarly | src/hooks/useEarthquakes.ts:24-25 | with two fetches in flight, the first completion clears `loading` while one is still pending |
| EarthquakeMarkers.CenterOf | src/components/EarthquakeMarkers.tsx:28-29 | the map centre is latitude then longitude of the longitude-first position |
| EarthquakeMarkers.FindIndex | src/components/EarthquakeMarkers.tsx:26 | `find` yields the first index with the id, or nothing when no event has it |
| EarthquakeMarkers.FocusTarget | src/components/EarthquakeMarkers.tsx:24-32 | no focus for an absent or empty selection or an unknown id; otherwise a focus at zoom 6 |
| EarthquakeMarkers.MarkerOf | src/components/EarthquakeMarkers.tsx:42-51 | a marker is keyed by id, centred at latitude and longitude, coloured and sized by magnitude |
| EarthquakeMarkers.Markers | src/components/EarthquakeMarkers.tsx:41-51 | exactly one marker per event, in input order |
| EarthquakeMarkers.FocusIsFirstMarkerWithKey | src/components/EarthquakeMarkers.tsx:24-51 | the focus centre is the centre of the first marker keyed by the selected id |
| EarthquakeMarkers.UnknownSelectionIsNoFocus | src/components/EarthquakeMarkers.tsx:26-27 | selecting an id no event has gives no focus |
| App.RefreshInterval | src/App.tsx:21-23 | the hook's interval is 300000 ms exactly while auto-refresh is on, and undefined otherwise |
| App.Init | src/App.tsx:13-23 | auto-refresh off, nothing selected, filters `{0, null, ''}`, sort by time, one fetch started and no timer |
| App.ShowsError | src/App.tsx:27 | the error screen shows exactly when the error is neither `null` nor the falsy empty string |
| App.Step | src/App.tsx:37-64 | the sidebar's controls do nothing while the error screen shows, and its refresh does nothing while loading; a sort choice does not survive the error screen; no action sets a maximum depth; only a row click changes the selection and only the toggle changes auto-refresh. On the dashboard the toggle flips auto-refresh and sets the timer to match, a click on a shown row selects that row's id, the search box and slider update their filter field only, a sort button sets the sort, and refresh starts a fetch unless one is loading. "Try Again" on the error screen starts a fetch and brings the dashboard back. Timer ticks and completions go to the fetch hook whatever is shown |
| App.StepPreservesInvariant | src/App.tsx:13-69 | every action preserves the page invariant |
| App.RunPreservesInvariant | src/App.tsx:13-69 | every trace of actions preserves the page invariant |
| App.ReachableInvariant | src/App.tsx:15-23 | in every reachable state `maxDepth` is null, a five-minute timer exists exactly while auto-refresh is on, loading implies a fetch in flight, an error never shows with the spinner, and the sort is time order while the error screen shows |
| App.DashboardReturnsSortedByTime | src/components/Sidebar.tsx:42 | when the dashboard replaces the error screen, the list is sorted by time again |
| App.SortChoiceLostAcrossError | src/App.tsx:27-55 | after choosing magnitude order the list is sorted by magnitude; a failed fetch then brings up the error screen; "Try Again" then gives a dashboard sorted by time |
| App.ToggleTwiceRestores | src/App.tsx:64 | toggling auto-refresh twice restores the state, timer included |
| App.NoSidebarRefreshWhileLoading | src/components/Sidebar.tsx:129-131 | the sidebar's refresh does nothing while loading |
| App.SelectionOnlyFromRows | src/App.tsx:55-65 | the selection changes only by a click on a shown row, and becomes that row's id |
| App.SelectionNeverCleared | src/App.tsx:14 | once set, the selection is never reset to null |
| App.Render | src/App.tsx:27-69 | the error screen exactly when the error text is non-empty, showing that text; otherwise markers, rows and the total agree in count |
| App.DashboardParts | src/App.tsx:47-69 | the markers, the list area and the statistics are all built from the one filtered list |
| App.SameEventsSameKeys | src/App.tsx:50-56 | two lists of the same events, each keyed by id, have the same keys |
| App.RowsMatchMarkers | src/App.tsx:50-56 | every sorted row has a marker with its key and every marker has a row with its key |
| App.ListAndMapAgree | src/App.tsx:49-67 | on a non-empty dashboard, the list and the map show the same events |
| App.EmptyErrorMessageKeepsDashboard | src/App.tsx:27 | a failure with an empty message sets the error to "" and keeps the dashboard |

## Left out

- The HTTP request (`axios.get` of the USGS endpoint) is left out. Its result is an input, an `Outcome`: the response's features or a thrown value.
- `Date.now()` and `new Date()` are left out. The current time is an integer parameter.
- `setInterval` and `clearInterval` are modelled only as the presence and period of a timer. Ticks are input actions.
- `console.error` is left out. It has no effect on the state.
- Overlapping fetches are modelled as atomic completions in arrival order. The model does not model `await` interleavings inside one fetch. It discards no stale response, because the code does not.
- `formatTime` is left out. Its `toLocaleString` output depends on the locale and time-zone data.
- `toFixed(1)` is a parameter `real -> string` of `EarthquakeUtils.FormatDepth`. Its digits depend on IEEE-754 double rounding, which the model does not model.
- Text.Lower: `toLowerCase` is modelled for ASCII letters only. Full Unicode case mapping is not modelled.
- Magnitudes and depths are exact `real` numbers. The model does not model NaN, infinities or the feed's `null` magnitudes. It also does not model rounding in the comparator's subtraction `b - a`, which is taken as the exact difference of the keys.
- Sidebar.SortBy: the sort is specified by its result (descending and stable), not by the engine's algorithm. The input cannot change because values are immutable, so "a copy is sorted" holds by construction.
- The slider's `parseFloat(e.target.value)` is left out. The parsed number is the parameter of `Sidebar.MinMagnitudeChanged`.
- The sidebar's collapse state is left out. It hides the sidebar's controls but has no part in the data. Like the sort choice, it would reset when the error screen unmounts the sidebar.
- JSX markup, CSS classes and icons are left out, as are the map tiles (`MapView`, which is not part of this model), marker clustering, popups and the `flyTo` animation. `EarthquakeMarkers.FocusTarget` gives only the target of `flyTo`.
- Legend.RangeTextIsBucket: the legend's texts give one-decimal upper bounds ("6.0-6.9"). The model reads "a-b" as a <= m < b + 0.1, so magnitudes with more decimals (6.95) fall in the row whose colour `getMagnitudeColor` gives them. Read literally, such magnitudes would fall in no row.
- Feed record fields that the core never reads are left out, such as `updated`, `felt` and `sig`.

=== FILE: analytics.dfy ===
/**
  The statistics panel (src/components/Analytics.tsx): the number of
  events, the number with magnitude at least 4.0, and the strongest
  magnitude, found by a left fold seeded with 0 that replaces the running
  value only on a strictly larger magnitude.
 */
module Analytics {
  import opened Types

  const SignificantMagnitude: real := 4.0

  datatype Stats = Stats(total: nat, significant: nat, strongest: real)

  predicate Significant(e: Earthquake)
  {
    e.mag >= SignificantMagnitude
  }

  /** The number of events of magnitude 4.0 or more, as the statistics panel counts them. */
  function CountSignificant(s: seq<Earthquake>): (n: nat)
    ensures n <= |s|
    ensures n > 0 <==> exists e :: e in s && Significant(e)
    decreases |s|
  {
    if s == [] then 0
    else
      assert s == [s[0]] + s[1..];
      (if Significant(s[0]) then 1 else 0) + CountSignificant(s[1..])
  }

  /** The positions of the significant events: an independent statement of
      what the filtered array's `length` counts. */
  ghost function SignificantPositions(s: seq<Earthquake>): set<int>
  {
    set i | 0 <= i < |s| && Significant(s[i])
  }

  /** Appending one event adds its position exactly when it is significant. */
  lemma PositionsSnoc(p: seq<Earthquake>, x: Earthquake)
    ensures SignificantPositions(p + [x]) == SignificantPositions(p) + (if Significant(x) then {|p|} else {})
  {
    var q := p + [x];
    forall i | 0 <= i < |p|
      ensures q[i] == p[i]
    {
    }
  }

  /** The count is the number of positions holding a significant event. */
  lemma {:induction false} CountIsSignificantPositions(s: seq<Earthquake>)
    ensures CountSignificant(s) == |SignificantPositions(s)|
    decreases |s|
  {
    if s != [] {
      var p, x := s[..|s| - 1], s[|s| - 1];
      assert s == p + [x];
      CountIsSignificantPositions(p);
      CountSignificantAppend(p, [x]);
      assert [x][1..] == [];
      PositionsSnoc(p, x);
      assert |p| !in SignificantPositions(p);
    }
  }

  /** The panel's fold over the magnitudes, which replaces the running value
      only on a strictly larger magnitude: the result is at least the seed and every magnitude, and it is the
      seed or one of the magnitudes. */
  function Strongest(s: seq<Earthquake>, acc: real): (m: real)
    ensures m >= acc
    ensures forall e :: e in s ==> e.mag <= m
    ensures m == acc || exists e :: e in s && e.mag == m
    decreases |s|
  {
    if s == [] then acc
    else
      assert s == [s[0]] + s[1..];
      Strongest(s[1..], if s[0].mag > acc then s[0].mag else acc)
  }

  /** The `stats` memo. */
  function ComputeStats(s: seq<Earthquake>): (r: Stats)
    ensures r.total == |s|
    ensures r.significant == |SignificantPositions(s)|
    ensures r.significant <= r.total
    ensures r.significant > 0 <==> exists e :: e in s && Significant(e)
    ensures r.strongest >= 0.0
    ensures forall e :: e in s ==> e.mag <= r.strongest
    ensures r.strongest == 0.0 || exists e :: e in s && e.mag == r.strongest
  {
    CountIsSignificantPositions(s);
    Stats(|s|, CountSignificant(s), Strongest(s, 0.0))
  }

  /** The strongest value is `max(0, largest magnitude)`: the characterisation
      above pins down one number. */
  lemma StrongestUnique(s: seq<Earthquake>, m: real)
    requires m >= 0.0
    requires forall e :: e in s ==> e.mag <= m
    requires m == 0.0 || exists e :: e in s && e.mag == m
    ensures ComputeStats(s).strongest == m
  {
  }

  /** An empty list gives zeros everywhere. */
  lemma EmptyStats()
    ensures ComputeStats([]) == Stats(0, 0, 0.0)
  {
  }

  /** If no magnitude is positive, the seed 0 survives. */
  lemma NonPositiveStrongestIsZero(s: seq<Earthquake>)
    requires forall e :: e in s ==> e.mag <= 0.0
    ensures ComputeStats(s).strongest == 0.0
  {
  }

  /** A significant event makes the strongest value at least 4.0. */
  lemma SignificantBoundsStrongest(s: seq<Earthquake>)
    requires ComputeStats(s).significant > 0
    ensures ComputeStats(s).strongest >= SignificantMagnitude
  {
  }

  lemma {:induction false} CountSignificantAppend(a: seq<Earthquake>, b: seq<Earthquake>)
    ensures CountSignificant(a + b) == CountSignificant(a) + CountSignificant(b)
    decreases |a|
  {
    if a == [] {
      assert a + b == b;
    } else {
      assert (a + b)[1..] == a[1..] + b;
      CountSignificantAppend(a[1..], b);
    }
  }

  /** The significant count depends only on which events occur how often. */
  lemma {:induction false} CountSignificantPermutation(a: seq<Earthquake>, b: seq<Earthquake>)
    requires multiset(a) == multiset(b)
    ensures CountSignificant(a) == CountSignificant(b)
    decreases |a|
  {
    if a != [] {
      var x := a[0];
      assert x in multiset(b);
      var i :| 0 <= i < |b| && b[i] == x;
      var rest := b[..i] + b[i + 1..];
      assert b == b[..i] + [x] + b[i + 1..];
      assert a == [x] + a[1..];
      assert multiset(b) == multiset(b[..i]) + multiset{x} + multiset(b[i + 1..]);
      assert multiset(rest) == multiset(b[..i]) + multiset(b[i + 1..]);
      assert multiset(a) == multiset{x} + multiset(a[1..]);
      assert multiset(a[1..]) == multiset(a) - multiset{x};
      assert multiset(rest) == multiset(b) - multiset{x};
      CountSignificantPermutation(a[1..], rest);
      CountSignificantAppend(b[..i] + [x], b[i + 1..]);
      CountSignificantAppend(b[..i], [x]);
      CountSignificantAppend(b[..i], b[i + 1..]);
    } else {
      assert |b| == |multiset(b)| == 0;
    }
  }

  /** All three statistics are the same for any reordering of the list. */
  lemma StatsPermutationInvariant(a: seq<Earthquake>, b: seq<Earthquake>)
    requires multiset(a) == multiset(b)
    ensures ComputeStats(a) == ComputeStats(b)
  {
    assert |a| == |multiset(a)| == |multiset(b)| == |b|;
    CountSignificantPermutation(a, b);
    forall e | e in a ensures e in b {
      assert e in multiset(a);
    }
    forall e | e in b ensures e in a {
      assert e in multiset(b);
    }
    StrongestUnique(b, ComputeStats(a).strongest);
  }

  /** The worked example: magnitudes 3.2, 4.5 and 5.0 give three events, two
      of them significant, the strongest 5.0. */
  lemma ExampleStats(e1: Earthquake, e2: Earthquake, e3: Earthquake)
    requires e1.mag == 3.2 && e2.mag == 4.5 && e3.mag == 5.0
    ensures ComputeStats([e1, e2, e3]) == Stats(3, 2, 5.0)
  {
    var s := [e1, e2, e3];
    assert s[1..] == [e2, e3] && s[1..][1..] == [e3] && s[1..][1..][1..] == [];
    assert CountSignificant([e3]) == 1;
    assert CountSignificant([e2, e3]) == 2;
    assert CountSignificant(s) == 2;
    StrongestUnique(s, 5.0);
  }
}

=== FILE: app.dfy ===
/**
  The page (src/App.tsx): the app-level state (auto-refresh switch,
  selected id, filter criteria), the fetch hook it drives with a 5-minute
  interval while auto-refresh is on, the error screen that replaces the
  dashboard while the error text is non-empty, and the one filtered list
  that the map, the sidebar and the statistics all receive. The sidebar's
  own sort choice is part of the state, since the page reaches it through
  the sidebar. User input, timer ticks and request completions are actions.
 */
module App {
  import opened Types
  import opened FilteredEarthquakes
  import opened Sidebar
  import opened Analytics
  import opened UseEarthquakes
  import opened EarthquakeMarkers
  import Legend

  /** `5 * 60 * 1000` milliseconds. */
  const AutoRefreshIntervalMs: int := 5 * 60 * 1000

  const DefaultFilters: FilterState := FilterState(0.0, None, "")

  datatype AppState = AppState(
    autoRefresh: bool,
    selected: Option<string>,
    filters: FilterState,
    sortBy: SortKey,
    hook: Hook)

  /** The interval handed to the fetch hook: five minutes, or `undefined`. */
  function RefreshInterval(autoRefresh: bool): (r: Option<int>)
    ensures r.Some? <==> autoRefresh
    ensures r.Some? ==> r.value == 300000
  {
    if autoRefresh then Some(AutoRefreshIntervalMs) else None
  }

  /** The first render: auto-refresh off, nothing selected, default filters,
      sorted by time, one fetch started and no polling timer. */
  function Init(): (a: AppState)
    ensures !a.autoRefresh && a.selected == None
    ensures a.filters == FilterState(0.0, None, "")
    ensures a.sortBy == ByTime
    ensures a.hook.state == FetchState([], true, None, None)
    ensures a.hook.started == 1 && a.hook.timer == None
  {
    AppState(false, None, DefaultFilters, DefaultSortKey, Mount(RefreshInterval(false)))
  }

  /** `if (error)`: `null` and the empty string are falsy, so the error
      screen shows exactly for an error text other than those two. */
  predicate ShowsError(a: AppState)
    ensures ShowsError(a) <==> a.hook.state.error != None && a.hook.state.error != Some("")
  {
    a.hook.state.error.Some? && a.hook.state.error.value != ""
  }

  /** The one filtered list every consumer receives. */
  function Filtered(a: AppState): seq<Earthquake>
  {
    Filter(a.hook.state.earthquakes, a.filters)
  }

  datatype Action =
    | ToggleAutoRefresh                     // the sidebar's auto-refresh button
    | SelectRow(index: nat)                 // a click on the index-th list row
    | SearchInput(text: string)             // the search box
    | SliderInput(value: real)              // the magnitude slider, parsed
    | SortChosen(key: SortKey)              // the two sort buttons
    | SidebarRefresh                        // the sidebar's refresh button
    | TryAgain                              // the error screen's button
    | TimerFired                            // a tick of the polling timer
    | FetchCompleted(outcome: Outcome, now: int)  // a request completes

  /** The sidebar's controls, which exist only while the dashboard is shown. */
  predicate SidebarAction(act: Action)
  {
    act.ToggleAutoRefresh? || act.SelectRow? || act.SearchInput? || act.SliderInput?
    || act.SortChosen? || act.SidebarRefresh?
  }

  /** What one action does to the state before the page renders again. The
      sidebar's controls exist only while the dashboard is shown, and its
      refresh button is disabled while loading; the error screen's button
      exists only while the error screen is shown. */
  function Dispatch(a: AppState, act: Action): AppState
  {
    match act
    case TimerFired => a.(hook := HookStep(a.hook, Tick))
    case FetchCompleted(outcome, now) => a.(hook := HookStep(a.hook, Settled(outcome, now)))
    case TryAgain => if ShowsError(a) then a.(hook := HookStep(a.hook, Refresh)) else a
    case ToggleAutoRefresh =>
      if ShowsError(a) then a
      else
        var on := !a.autoRefresh;
        a.(autoRefresh := on, hook := HookStep(a.hook, IntervalChanged(RefreshInterval(on))))
    case SelectRow(i) =>
      var sorted := SortBy(Filtered(a), a.sortBy);
      if ShowsError(a) || i >= |sorted| then a else a.(selected := Some(sorted[i].id))
    case SearchInput(text) => if ShowsError(a) then a else a.(filters := SearchChanged(a.filters, text))
    case SliderInput(value) => if ShowsError(a) then a else a.(filters := MinMagnitudeChanged(a.filters, value))
    case SortChosen(key) => if ShowsError(a) then a else a.(sortBy := key)
    case SidebarRefresh =>
      if ShowsError(a) || !RefreshEnabled(a.hook.state.loading) then a
      else a.(hook := HookStep(a.hook, Refresh))
  }

  /** One action, then the render. The error screen replaces the whole
      dashboard, so the sidebar is unmounted and its sort choice is lost: it
      mounts again sorted by time. The choice cannot be seen while the error
      screen shows, so the model resets it as soon as the error screen
      appears. */
  function Step(a: AppState, act: Action): (r: AppState)
    ensures ShowsError(r) ==> r.sortBy == DefaultSortKey
    ensures ShowsError(a) && SidebarAction(act) ==> r == a.(sortBy := DefaultSortKey)
    ensures act.SidebarRefresh? && a.hook.state.loading ==> r.hook == a.hook
    ensures r.filters.maxDepth == a.filters.maxDepth
    ensures r.selected != a.selected ==> act.SelectRow? && !ShowsError(a)
    ensures r.autoRefresh != a.autoRefresh ==> act.ToggleAutoRefresh? && !ShowsError(a)
    // What each control does on the dashboard.
    ensures !ShowsError(a) && act.ToggleAutoRefresh? ==>
              r.autoRefresh == !a.autoRefresh && r.hook.timer == RefreshInterval(!a.autoRefresh)
    ensures !ShowsError(a) && act.SelectRow? && act.index < |SortBy(Filtered(a), a.sortBy)| ==>
              r.selected == Some(SortBy(Filtered(a), a.sortBy)[act.index].id)
    ensures !ShowsError(a) && act.SearchInput? ==> r == a.(filters := SearchChanged(a.filters, act.text))
    ensures !ShowsError(a) && act.SliderInput? ==> r == a.(filters := MinMagnitudeChanged(a.filters, act.value))
    ensures !ShowsError(a) && act.SortChosen? ==> r == a.(sortBy := act.key)
    ensures !ShowsError(a) && act.SidebarRefresh? && !a.hook.state.loading ==>
              r == a.(hook := HookStep(a.hook, Refresh)) && r.hook.state.loading
              && r.hook.started == a.hook.started + 1
    // "Try Again" on the error screen starts a fetch and leaves the error screen.
    ensures ShowsError(a) && act.TryAgain? ==>
              r == a.(hook := HookStep(a.hook, Refresh)) && !ShowsError(r) && r.hook.state.loading
    // Ticks and completions reach the fetch hook whatever is shown.
    ensures act.TimerFired? ==> r.hook == HookStep(a.hook, Tick)
    ensures act.FetchCompleted? ==> r.hook == HookStep(a.hook, Settled(act.outcome, act.now))
  {
    var b := Dispatch(a, act);
    if ShowsError(b) then b.(sortBy := DefaultSortKey) else b
  }

  /** The state after a sequence of actions. */
  function Run(a: AppState, acts: seq<Action>): AppState
    decreases |acts|
  {
    if acts == [] then a else Run(Step(a, acts[0]), acts[1..])
  }

  /** What every reachable state keeps: no maximum depth is ever set, a
      polling timer of five minutes exists exactly while auto-refresh is on,
      the sort is back at time order while the error screen shows, and the
      fetch hook's own invariant. */
  ghost predicate AppInvariant(a: AppState)
  {
    && a.filters.maxDepth == None
    && (ShowsError(a) ==> a.sortBy == DefaultSortKey)
    && a.hook.timer == RefreshInterval(a.autoRefresh)
    && UseEarthquakes.Invariant(a.hook)
  }

  lemma StepPreservesInvariant(a: AppState, act: Action)
    requires AppInvariant(a)
    ensures AppInvariant(Step(a, act))
  {
    match act
    case TimerFired => HookStepPreservesInvariant(a.hook, Tick);
    case FetchCompleted(outcome, now) => HookStepPreservesInvariant(a.hook, Settled(outcome, now));
    case TryAgain => HookStepPreservesInvariant(a.hook, Refresh);
    case SidebarRefresh => HookStepPreservesInvariant(a.hook, Refresh);
    case ToggleAutoRefresh => HookStepPreservesInvariant(a.hook, IntervalChanged(RefreshInterval(!a.autoRefresh)));
    case _ =>
  }

  lemma {:induction false} RunPreservesInvariant(a: AppState, acts: seq<Action>)
    requires AppInvariant(a)
    ensures AppInvariant(Run(a, acts))
    decreases |acts|
  {
    if acts != [] {
      StepPreservesInvariant(a, acts[0]);
      RunPreservesInvariant(Step(a, acts[0]), acts[1..]);
    }
  }

  /** Every state reached from the first render keeps the invariant: the
      maximum depth stays null forever, the timer follows the switch, the
      spinner shows only while a fetch is in flight, an error never shows
      together with the spinner, and the sort is back at time order while
      the error screen shows. */
  lemma ReachableInvariant(acts: seq<Action>)
    ensures var a := Run(Init(), acts);
            && a.filters.maxDepth == None
            && (a.hook.timer.Some? <==> a.autoRefresh)
            && (a.hook.timer.Some? ==> a.hook.timer.value == AutoRefreshIntervalMs)
            && (a.hook.state.loading ==> a.hook.inFlight > 0)
            && (a.hook.state.error.Some? ==> !a.hook.state.loading)
            && (ShowsError(a) ==> a.sortBy == ByTime)
  {
    MountEstablishesInvariant(None);
    RunPreservesInvariant(Init(), acts);
  }

  /** When the dashboard comes back after the error screen, the list is
      sorted by time again, whatever was chosen before the error. */
  lemma DashboardReturnsSortedByTime(a: AppState, act: Action)
    requires AppInvariant(a)
    requires ShowsError(a) && !ShowsError(Step(a, act))
    ensures Step(a, act).sortBy == ByTime
  {
  }

  /** A magnitude sort chosen on the dashboard is in effect, a failed fetch
      brings up the error screen, and after "Try Again" the dashboard is
      back sorted by time: the choice is gone. */
  lemma SortChoiceLostAcrossError(t: int)
    ensures var acts := [SortChosen(ByMagnitude), FetchCompleted(Threw(ErrorObject("Network Error")), t), TryAgain];
            var a := Run(Init(), acts);
            && Run(Init(), acts[..1]).sortBy == ByMagnitude
            && ShowsError(Run(Init(), acts[..2]))
            && !ShowsError(a) && a.sortBy == ByTime
  {
    var acts := [SortChosen(ByMagnitude), FetchCompleted(Threw(ErrorObject("Network Error")), t), TryAgain];
    var a1 := Step(Init(), acts[0]);
    assert a1.sortBy == ByMagnitude;
    var a2 := Step(a1, acts[1]);
    assert ShowsError(a2);
    var a3 := Step(a2, acts[2]);
    assert a3.sortBy == ByTime && !ShowsError(a3);
    assert acts[1..][1..][1..] == [];
    assert Run(Init(), acts) == Run(a1, acts[1..]) == Run(a2, acts[1..][1..]) == Run(a3, []);
    assert acts[..1][1..] == [] && acts[..2][1..][1..] == [];
    assert Run(Init(), acts[..1]) == Run(a1, []);
    assert Run(Init(), acts[..2]) == Run(a1, acts[..2][1..]) == Run(a2, []);
  }

  /** Toggling auto-refresh twice restores the state, timer included. */
  lemma ToggleTwiceRestores(a: AppState)
    requires AppInvariant(a)
    requires !ShowsError(a)
    ensures Step(Step(a, ToggleAutoRefresh), ToggleAutoRefresh) == a
  {
    var b := Step(a, ToggleAutoRefresh);
    assert !ShowsError(b);
  }

  /** The sidebar cannot start a fetch while one is loading. */
  lemma NoSidebarRefreshWhileLoading(a: AppState)
    requires AppInvariant(a)
    requires a.hook.state.loading
    ensures Step(a, SidebarRefresh) == a
  {
  }

  /** The selection changes only by a click on a shown row, and becomes
      that row's id. */
  lemma SelectionOnlyFromRows(a: AppState, act: Action)
    requires Step(a, act).selected != a.selected
    ensures act.SelectRow? && !ShowsError(a)
    ensures var sorted := SortBy(Filtered(a), a.sortBy);
            act.index < |sorted| && Step(a, act).selected == Some(sorted[act.index].id)
  {
  }

  /** Once something is selected, no sequence of actions clears the selection. */
  lemma {:induction false} SelectionNeverCleared(a: AppState, acts: seq<Action>)
    requires a.selected.Some?
    ensures Run(a, acts).selected.Some?
    decreases |acts|
  {
    if acts != [] {
      SelectionNeverCleared(Step(a, acts[0]), acts[1..]);
    }
  }

  /** What the page shows. */
  datatype Screen =
    | ErrorScreen(message: string)
    | Dashboard(
        markers: seq<Marker>,
        focus: Option<Focus>,
        lastUpdated: Option<string>,
        list: ListArea,
        stats: Stats,
        legend: seq<Legend.Entry>)

  /** The render: the error screen while the error text is non-empty, else
      the map, the sidebar, the legend and the statistics, all fed from the
      one filtered list. `now` stands for `Date.now()`. */
  function Render(a: AppState, now: int): (r: Screen)
    ensures r.ErrorScreen? <==> ShowsError(a)
    ensures r.ErrorScreen? ==> Some(r.message) == a.hook.state.error
    ensures r.Dashboard? ==>
              && |r.markers| == r.stats.total
              && (r.list.List? <==> r.stats.total > 0)
              && (r.list.List? ==> |r.list.rows| == r.stats.total)
              && (r.list == Spinner <==> a.hook.state.loading && r.stats.total == 0)
  {
    if ShowsError(a) then ErrorScreen(a.hook.state.error.value)
    else
      var shown := Filtered(a);
      Dashboard(
        Markers(shown),
        FocusTarget(shown, a.selected),
        LastUpdatedText(a.hook.state.lastUpdated, now),
        ListView(shown, a.hook.state.loading, a.sortBy, now),
        ComputeStats(shown),
        Legend.MagnitudeRanges)
  }

  /** Every list row has a marker with the same key, and every marker has
      a row with the same key. */
  ghost predicate ListMatchesMap(rows: seq<Row>, markers: seq<Marker>)
  {
    && (forall i :: 0 <= i < |rows| ==> exists j :: 0 <= j < |markers| && markers[j].key == rows[i].key)
    && (forall j :: 0 <= j < |markers| ==> exists i :: 0 <= i < |rows| && rows[i].key == markers[j].key)
  }

  /** The map and the list show the same events when both list the same
      events, each item keyed by its event's id. */
  lemma {:induction false} SameEventsSameKeys(sorted: seq<Earthquake>, shown: seq<Earthquake>, rows: seq<Row>, markers: seq<Marker>)
    requires multiset(sorted) == multiset(shown)
    requires |rows| == |sorted| && forall i :: 0 <= i < |rows| ==> rows[i].key == sorted[i].id
    requires |markers| == |shown| && forall j :: 0 <= j < |markers| ==> markers[j].key == shown[j].id
    ensures ListMatchesMap(rows, markers)
  {
    forall i | 0 <= i < |rows|
      ensures exists j :: 0 <= j < |markers| && markers[j].key == rows[i].key
    {
      assert sorted[i] in multiset(shown);
      var j :| 0 <= j < |shown| && shown[j] == sorted[i];
      assert markers[j].key == rows[i].key;
    }
    forall j | 0 <= j < |markers|
      ensures exists i :: 0 <= i < |rows| && rows[i].key == markers[j].key
    {
      assert shown[j] in multiset(sorted);
      var i :| 0 <= i < |sorted| && sorted[i] == shown[j];
      assert rows[i].key == markers[j].key;
    }
  }

  /** Every row of the sorted list has a marker with the same key, and
      every marker has a row with the same key. */
  lemma RowsMatchMarkers(shown: seq<Earthquake>, sortBy: SortKey, now: int)
    ensures ListMatchesMap(Rows(SortBy(shown, sortBy), now), Markers(shown))
  {
    var sorted := SortBy(shown, sortBy);
    SameEventsSameKeys(sorted, shown, Rows(sorted, now), Markers(shown));
  }

  /** The dashboard's map layer, list area and statistics are all built
      from the one filtered list. */
  lemma DashboardParts(a: AppState, now: int)
    requires !ShowsError(a)
    ensures Render(a, now).Dashboard?
    ensures Render(a, now).markers == Markers(Filtered(a))
    ensures Render(a, now).list == ListView(Filtered(a), a.hook.state.loading, a.sortBy, now)
    ensures Render(a, now).stats == ComputeStats(Filtered(a))
  {
  }

  lemma ListViewRows(shown: seq<Earthquake>, loading: bool, sortBy: SortKey, now: int)
    requires |shown| > 0
    ensures ListView(shown, loading, sortBy, now).List?
    ensures ListView(shown, loading, sortBy, now).rows == Rows(SortBy(shown, sortBy), now)
  {
  }

  /** The map and the list show the same events: every list row has a
      marker with the same key, and vice versa. */
  lemma ListAndMapAgree(a: AppState, now: int)
    requires !ShowsError(a) && |Filtered(a)| > 0
    ensures var r := Render(a, now);
            r.Dashboard? && r.list.List? && ListMatchesMap(r.list.rows, r.markers)
  {
    var shown := Filtered(a);
    DashboardParts(a, now);
    ListViewRows(shown, a.hook.state.loading, a.sortBy, now);
    RowsMatchMarkers(shown, a.sortBy, now);
  }

  /** A failure whose `Error` has an empty message sets the error to "",
      which is falsy: the dashboard stays, with no error screen. */
  lemma EmptyErrorMessageKeepsDashboard(a: AppState, now: int)
    requires a.hook.inFlight > 0
    ensures !ShowsError(Step(a, FetchCompleted(Threw(ErrorObject("")), now)))
    ensures Step(a, FetchCompleted(Threw(ErrorObject("")), now)).hook.state.error == Some("")
  {
  }

}

=== FILE: earthquake_markers.dfy ===
/**
  The map layer's logic (src/components/EarthquakeMarkers.tsx): one circle
  marker per event, and the focus effect that flies the map to the selected
  event. Positions are GeoJSON `[longitude, latitude, depth]` (section 3.1.1
  of RFC 7946); the map wants `[latitude, longitude]`.
 */
module EarthquakeMarkers {
  import opened Types
  import opened EarthquakeUtils

  /** A map centre `[lat, lng]`. */
  datatype LatLng = LatLng(lat: real, lng: real)

  /** The zoom the focus effect flies to. */
  const FocusZoom: int := 6

  datatype Focus = Focus(center: LatLng, zoom: int)

  /** The map centre of a GeoJSON position: latitude first. */
  function CenterOf(p: Position): (c: LatLng)
    ensures c.lat == p.lat && c.lng == p.lng
  {
    LatLng(p.lat, p.lng)
  }

  /** The index of the first event with this id, as `Array.find` locates it. */
  function FindIndex(s: seq<Earthquake>, id: string): (r: Option<nat>)
    ensures r.None? <==> forall i :: 0 <= i < |s| ==> s[i].id != id
    ensures r.Some? ==> r.value < |s| && s[r.value].id == id
    ensures r.Some? ==> forall i :: 0 <= i < r.value ==> s[i].id != id
    decreases |s|
  {
    if s == [] then None
    else if s[0].id == id then Some(0)
    else
      match FindIndex(s[1..], id)
      case None => None
      case Some(i) => Some(i + 1)
  }

  /** The focus effect: nothing for a falsy selection (absent or empty),
      nothing when no event has the id, otherwise the first such event's
      position at zoom 6. */
  function FocusTarget(s: seq<Earthquake>, selected: Option<string>): (r: Option<Focus>)
    ensures selected.None? || selected == Some("") ==> r.None?
    ensures r.Some? ==> r.value.zoom == FocusZoom
    ensures r.Some? <==> selected.Some? && selected.value != "" && exists i :: 0 <= i < |s| && s[i].id == selected.value
  {
    if selected.None? || selected.value == "" then None
    else
      match FindIndex(s, selected.value)
      case None => None
      case Some(i) => Some(Focus(CenterOf(s[i].coordinates), FocusZoom))
  }

  /** One circle marker: its key, centre, radius, colour, and the event it pops up. */
  datatype Marker = Marker(key: string, center: LatLng, radius: real, color: string, event: Earthquake)

  function MarkerOf(e: Earthquake): (m: Marker)
    ensures m.key == e.id && m.event == e
    ensures m.center.lat == e.coordinates.lat && m.center.lng == e.coordinates.lng
    ensures m.color == MagnitudeColor(e.mag) && m.radius == MagnitudeRadius(e.mag)
  {
    Marker(e.id, CenterOf(e.coordinates), MagnitudeRadius(e.mag), MagnitudeColor(e.mag), e)
  }

  /** `earthquakes.map(...)`: exactly one marker per event, in input order. */
  function Markers(s: seq<Earthquake>): (r: seq<Marker>)
    ensures |r| == |s|
    ensures forall i :: 0 <= i < |s| ==> r[i] == MarkerOf(s[i])
  {
    seq(|s|, i requires 0 <= i < |s| => MarkerOf(s[i]))
  }

  /** The map flies to where the selected event's marker is drawn: the
      focus centre is the centre of the first marker keyed by the selection. */
  lemma FocusIsFirstMarkerWithKey(s: seq<Earthquake>, selected: Option<string>)
    requires FocusTarget(s, selected).Some?
    ensures var ms := Markers(s);
            exists i :: 0 <= i < |ms| && ms[i].key == selected.value
              && ms[i].center == FocusTarget(s, selected).value.center
              && forall j :: 0 <= j < i ==> ms[j].key != selected.value
  {
    var i := FindIndex(s, selected.value).value;
    assert Markers(s)[i].key == selected.value;
  }

  /** Selecting an id that no listed event has is a soft miss: no focus. */
  lemma UnknownSelectionIsNoFocus(s: seq<Earthquake>, id: string)
    requires forall i :: 0 <= i < |s| ==> s[i].id != id
    ensures FocusTarget(s, Some(id)).None?
  {
  }
}

=== FILE: earthquake_utils.dfy ===
/**
  Display helpers of src/utils/earthquakeUtils.ts: the eight-bucket
  magnitude colour scale, the marker radius, depth text and the relative
  "time ago" text. The clock is a parameter (`now`), and `toFixed(1)` is a
  parameter as well, since its digits depend on IEEE-754 rounding.
 */
module EarthquakeUtils {
  import opened Types
  import opened Text

  /** The scale's colours, indexed by bucket: index 0 is below magnitude 1,
      index 7 is magnitude 7 and above. */
  const Palette: seq<string> :=
    ["#22c55e", "#a3e635", "#fbbf24", "#fb923c", "#f97316", "#ea580c", "#dc2626", "#b91c1c"]

  /** The bucket of a magnitude: the highest threshold among 1 .. 7 that is
      at most `m`, or 0 when there is none (this includes negative values). */
  function Bucket(m: real): (b: nat)
    ensures b < |Palette|
    ensures b == 0 || b as real <= m
    ensures b == 7 || m < (b + 1) as real
  {
    if m >= 7.0 then 7
    else if m >= 6.0 then 6
    else if m >= 5.0 then 5
    else if m >= 4.0 then 4
    else if m >= 3.0 then 3
    else if m >= 2.0 then 2
    else if m >= 1.0 then 1
    else 0
  }

  /** `getMagnitudeColor`: a chain of `>=` tests from the strongest threshold down. */
  function MagnitudeColor(m: real): (c: string)
    ensures c in Palette
    ensures c == Palette[Bucket(m)]
    ensures m < 1.0 ==> c == "#22c55e"
  {
    if m >= 7.0 then "#b91c1c"
    else if m >= 6.0 then "#dc2626"
    else if m >= 5.0 then "#ea580c"
    else if m >= 4.0 then "#f97316"
    else if m >= 3.0 then "#fb923c"
    else if m >= 2.0 then "#fbbf24"
    else if m >= 1.0 then "#a3e635"
    else "#22c55e"
  }

  /** The buckets are determined by the magnitude alone: exactly one bucket
      index satisfies the bounds `Bucket` promises. */
  lemma BucketUnique(m: real, b: nat)
    requires b < |Palette|
    requires b == 0 || b as real <= m
    requires b == 7 || m < (b + 1) as real
    ensures Bucket(m) == b
  {
  }

  /** A stronger magnitude never gets a weaker bucket. */
  lemma BucketMonotone(m1: real, m2: real)
    requires m1 <= m2
    ensures Bucket(m1) <= Bucket(m2)
  {
  }

  /** No colour is used for two buckets. */
  lemma PaletteDistinct()
    ensures forall i, j :: 0 <= i < j < |Palette| ==> Palette[i] != Palette[j]
  {
  }

  /** Hence a colour identifies its bucket. */
  lemma ColorIdentifiesBucket(m1: real, m2: real)
    ensures MagnitudeColor(m1) == MagnitudeColor(m2) <==> Bucket(m1) == Bucket(m2)
  {
    PaletteDistinct();
  }

  const BaseRadius: real := 5.0
  const RadiusScale: real := 3.0

  /** `getMagnitudeRadius`: linear in the magnitude; the magnitude can be
      read back from the radius. */
  function MagnitudeRadius(m: real): (r: real)
    ensures (r - BaseRadius) / RadiusScale == m
  {
    BaseRadius + m * RadiusScale
  }

  /** The radius is the base radius at magnitude 0 and grows strictly with
      the magnitude, so a stronger event always has a larger circle. */
  lemma RadiusStrictlyIncreasing(m1: real, m2: real)
    requires m1 < m2
    ensures MagnitudeRadius(m1) < MagnitudeRadius(m2)
    ensures MagnitudeRadius(0.0) == BaseRadius
  {
  }

  /** `formatDepth`: the absolute depth, formatted by `toFixed`, then " km". */
  function FormatDepth(depth: real, toFixed: real -> string): (r: string)
    ensures EndsWith(r, " km")
    ensures r[..|r| - 3] == toFixed(Abs(depth))
  {
    toFixed(Abs(depth)) + " km"
  }

  /** The sign of a depth does not show in its text. */
  lemma FormatDepthSymmetric(depth: real, toFixed: real -> string)
    ensures FormatDepth(depth, toFixed) == FormatDepth(-depth, toFixed)
  {
    assert Abs(depth) == Abs(-depth);
  }

  const MinuteMs: int := 60000
  const HourMs: int := 60 * MinuteMs
  const DayMs: int := 24 * HourMs

  datatype TimeUnit = Minute | Hour | Day

  /** What `getRelativeTime` says, before it is turned into text. */
  datatype Age = JustNow | Ago(count: nat, unit: TimeUnit)

  /** Flooring twice by 60000 and 60 is flooring once by an hour's length. */
  lemma {:induction false} FloorMinutesToHours(diff: int)
    ensures (diff / MinuteMs) / 60 == diff / HourMs
  {
    var q := diff / MinuteMs;
    var r := diff % MinuteMs;
    var q2 := q / 60;
    var r2 := q % 60;
    assert diff == HourMs * q2 + (MinuteMs * r2 + r);
    assert 0 <= MinuteMs * r2 + r < HourMs;
  }

  /** Flooring an hour count by 24 is flooring once by a day's length. */
  lemma {:induction false} FloorHoursToDays(diff: int)
    ensures (diff / HourMs) / 24 == diff / DayMs
  {
    var q := diff / HourMs;
    var r := diff % HourMs;
    var q2 := q / 24;
    var r2 := q % 24;
    assert diff == DayMs * q2 + (HourMs * r2 + r);
    assert 0 <= HourMs * r2 + r < DayMs;
  }

  /** The unit choice of `getRelativeTime(timestamp)` with `Date.now()` as
      `now`: floored minutes, hours and days, then the first branch whose
      bound holds. `Math.floor(x / n)` for a positive `n` is Dafny's `/`. */
  function RelativeAge(now: int, timestamp: int): (a: Age)
    ensures a == JustNow <==> now - timestamp < MinuteMs
    ensures a.Ago? && a.unit == Minute ==>
              MinuteMs <= now - timestamp < HourMs && a.count == (now - timestamp) / MinuteMs
    ensures a.Ago? && a.unit == Hour ==>
              HourMs <= now - timestamp < DayMs && a.count == (now - timestamp) / HourMs
    ensures a.Ago? && a.unit == Day ==>
              DayMs <= now - timestamp && a.count == (now - timestamp) / DayMs
  {
    var diff := now - timestamp;
    var minutes := diff / 60000;
    var hours := minutes / 60;
    var days := hours / 24;
    FloorMinutesToHours(diff);
    FloorHoursToDays(diff);
    if minutes < 1 then JustNow
    else if minutes < 60 then Ago(minutes, Minute)
    else if hours < 24 then Ago(hours, Hour)
    else Ago(days, Day)
  }

  /** Every elapsed time of at least a minute gets exactly one unit, with a
      count of at least 1 that stays below the next unit. */
  lemma AgeCountsInRange(now: int, timestamp: int)
    requires now - timestamp >= MinuteMs
    ensures RelativeAge(now, timestamp).Ago?
    ensures var a := RelativeAge(now, timestamp);
            1 <= a.count && (a.unit == Minute ==> a.count < 60) && (a.unit == Hour ==> a.count < 24)
  {
  }

  function UnitWord(u: TimeUnit): string
  {
    match u
    case Minute => "minute"
    case Hour => "hour"
    case Day => "day"
  }

  /** The words after the count: " ", the unit word, "s" when plural, " ago". */
  function UnitWords(u: TimeUnit, plural: bool): string
  {
    " " + UnitWord(u) + (if plural then "s" else "") + " ago"
  }

  /** The text of an age: "Just now", or the count, the unit word (plural
      unless the count is 1) and " ago". */
  function AgeText(a: Age): string
  {
    match a
    case JustNow => "Just now"
    case Ago(c, u) => NatToString(c) + UnitWords(u, c != 1)
  }

  /** `getRelativeTime`. */
  function RelativeTime(now: int, timestamp: int): (r: string)
    ensures now - timestamp < MinuteMs ==> r == "Just now"
    ensures now - timestamp >= MinuteMs ==> EndsWith(r, " ago")
  {
    AgeText(RelativeAge(now, timestamp))
  }

  /** The unit word is singular exactly when the count is 1. */
  lemma PluralIffCountNotOne(c: nat, u: TimeUnit)
    ensures EndsWith(AgeText(Ago(c, u)), "s ago") <==> c != 1
  {
    var w := UnitWords(u, c != 1);
    var t := NatToString(c) + w;
    assert AgeText(Ago(c, u)) == t;
    assert t[|t| - 5..] == w[|w| - 5..];
    if c != 1 {
      assert w == " " + UnitWord(u) + "s ago";
    } else {
      match u
      case Minute => assert w == " minute ago";
      case Hour => assert w == " hour ago";
      case Day => assert w == " day ago";
    }
  }

  /** The leading digits of a text, up to the first non-digit. */
  function DigitPrefixLength(s: string): (k: nat)
    ensures k <= |s|
    ensures AllDigits(s[..k])
    ensures k < |s| ==> !IsDigit(s[k])
    decreases |s|
  {
    if s == [] || !IsDigit(s[0]) then 0
    else
      var k := 1 + DigitPrefixLength(s[1..]);
      assert s[..k] == [s[0]] + s[1..][..k - 1];
      k
  }

  /** Reads the unit back from the words after the count. */
  function ParseUnitWords(w: string): Option<(TimeUnit, bool)>
  {
    if w == UnitWords(Minute, false) then Some((Minute, false))
    else if w == UnitWords(Minute, true) then Some((Minute, true))
    else if w == UnitWords(Hour, false) then Some((Hour, false))
    else if w == UnitWords(Hour, true) then Some((Hour, true))
    else if w == UnitWords(Day, false) then Some((Day, false))
    else if w == UnitWords(Day, true) then Some((Day, true))
    else None
  }

  lemma ParseUnitWordsInverse(u: TimeUnit, plural: bool)
    ensures ParseUnitWords(UnitWords(u, plural)) == Some((u, plural))
  {
    assert UnitWords(Minute, false) == " minute ago";
    assert UnitWords(Minute, true) == " minutes ago";
    assert UnitWords(Hour, false) == " hour ago";
    assert UnitWords(Hour, true) == " hours ago";
    assert UnitWords(Day, false) == " day ago";
    assert UnitWords(Day, true) == " days ago";
  }

  /** Reads an age back from its text. */
  function ParseAge(s: string): Option<Age>
  {
    if s == "Just now" then Some(JustNow)
    else
      var k := DigitPrefixLength(s);
      if k == 0 then None
      else
        match ParseUnitWords(s[k..])
        case None => None
        case Some((u, plural)) =>
          var c := ParseNat(s[..k]);
          if plural == (c != 1) then Some(Ago(c, u)) else None
  }

  lemma {:induction false} DigitPrefixAll(d: string, rest: string)
    requires AllDigits(d)
    requires rest != [] && !IsDigit(rest[0])
    ensures DigitPrefixLength(d + rest) == |d|
    decreases |d|
  {
    if d == [] {
      assert d + rest == rest;
    } else {
      assert (d + rest)[0] == d[0] && IsDigit(d[0]);
      assert (d + rest)[1..] == d[1..] + rest;
      assert AllDigits(d[1..]);
      DigitPrefixAll(d[1..], rest);
    }
  }

  /** The relative-time text loses nothing: the age can be read back from it,
      so different ages never show the same text. */
  lemma AgeTextRoundTrip(a: Age)
    ensures ParseAge(AgeText(a)) == Some(a)
  {
    match a
    case JustNow =>
    case Ago(c, u) =>
      var d := NatToString(c);
      var words := UnitWords(u, c != 1);
      var t := d + words;
      assert AgeText(a) == t;
      assert t != "Just now" by {
        assert IsDigit(t[0]);
      }
      DigitPrefixAll(d, words);
      assert t[..|d|] == d;
      assert t[|d|..] == words;
      ParseUnitWordsInverse(u, c != 1);
      ParseNatToString(c);
  }
}

=== FILE: filtered_earthquakes.dfy ===
/**
  The filter engine (src/hooks/useFilteredEarthquakes.ts): `Array.filter`
  with a predicate that rejects on a too-small magnitude, then on a too-large
  absolute depth when a maximum is set, then on a search term that does not
  occur, case-insensitively, in the place text.
 */
module FilteredEarthquakes {
  import opened Types
  import opened Text

  /** The filter predicate, in the source's early-return order. A search term
      is only checked when it is truthy, that is non-empty. */
  predicate Matches(e: Earthquake, f: FilterState)
    ensures Matches(e, f) ==> e.mag >= f.minMagnitude
    ensures Matches(e, f) && f.maxDepth.Some? ==> Abs(e.coordinates.depth) <= f.maxDepth.value
    ensures f.maxDepth.None? && f.searchTerm == "" ==> (Matches(e, f) <==> e.mag >= f.minMagnitude)
  {
    var mag := e.mag;
    var depth := Abs(e.coordinates.depth);
    var place := Lower(e.place);
    if mag < f.minMagnitude then false
    else if f.maxDepth.Some? && depth > f.maxDepth.value then false
    else if f.searchTerm != "" && !Contains(place, Lower(f.searchTerm)) then false
    else true
  }

  // The three tests of the filter, each stated on its own.

  ghost predicate MagnitudeTest(e: Earthquake, f: FilterState)
  {
    e.mag >= f.minMagnitude
  }

  /** An absent maximum depth never excludes anything. */
  ghost predicate DepthTest(e: Earthquake, f: FilterState)
  {
    match f.maxDepth
    case None => true
    case Some(d) => Abs(e.coordinates.depth) <= d
  }

  /** An empty search term never excludes anything. */
  ghost predicate SearchTest(e: Earthquake, f: FilterState)
  {
    f.searchTerm == [] || exists i :: OccursAt(Lower(e.place), Lower(f.searchTerm), i)
  }

  /** An event is kept exactly when it passes all three tests, so an event
      is excluded exactly when it fails at least one. */
  lemma MatchesIffAllTests(e: Earthquake, f: FilterState)
    ensures Matches(e, f) <==> MagnitudeTest(e, f) && DepthTest(e, f) && SearchTest(e, f)
  {
    ContainsIffOccurs(Lower(e.place), Lower(f.searchTerm));
  }

  /** `b` contains the elements of `a`, in the same order, possibly with others between. */
  predicate IsSubsequence<T(==)>(a: seq<T>, b: seq<T>)
    decreases |b|
  {
    a == [] || (b != [] && ((a[0] == b[0] && IsSubsequence(a[1..], b[1..])) || IsSubsequence(a, b[1..])))
  }

  /** `earthquakes.filter(...)`: keeps the matching events in input order,
      and keeps each matching event as many times as the input holds it. */
  function Filter(s: seq<Earthquake>, f: FilterState): (r: seq<Earthquake>)
    ensures IsSubsequence(r, s)
    ensures forall e :: multiset(r)[e] == if Matches(e, f) then multiset(s)[e] else 0
    ensures forall e :: e in r <==> e in s && Matches(e, f)
    decreases |s|
  {
    if s == [] then []
    else
      var rest := Filter(s[1..], f);
      assert s == [s[0]] + s[1..];
      if Matches(s[0], f) then [s[0]] + rest else rest
  }

  /** An event is in the result exactly when it is in the input and passes
      the magnitude test, the depth test (vacuous without a maximum) and the
      search test (vacuous for an empty term). */
  lemma FilteredPassAllTests(s: seq<Earthquake>, f: FilterState, e: Earthquake)
    ensures e in Filter(s, f) <==> e in s && MagnitudeTest(e, f) && DepthTest(e, f) && SearchTest(e, f)
  {
    MatchesIffAllTests(e, f);
  }

  /** Filtering a filtered list with the same criteria changes nothing. */
  lemma {:induction false} FilterIdempotent(s: seq<Earthquake>, f: FilterState)
    ensures Filter(Filter(s, f), f) == Filter(s, f)
    decreases |s|
  {
    if s != [] {
      FilterIdempotent(s[1..], f);
      if Matches(s[0], f) {
        assert Filter(s, f)[1..] == Filter(s[1..], f);
      }
    }
  }

  /** Raising the minimum magnitude, other criteria fixed, filters the
      previous result further: the new result is the old result filtered again. */
  lemma {:induction false} RaiseMinimumRefilters(s: seq<Earthquake>, f: FilterState, m: real)
    requires m >= f.minMagnitude
    ensures Filter(s, f.(minMagnitude := m)) == Filter(Filter(s, f), f.(minMagnitude := m))
    decreases |s|
  {
    var g := f.(minMagnitude := m);
    if s != [] {
      RaiseMinimumRefilters(s[1..], f, m);
      if Matches(s[0], f) {
        assert Filter(s, f)[1..] == Filter(s[1..], f);
      } else {
        assert !Matches(s[0], g);
      }
    }
  }

  /** Hence raising the minimum magnitude gives a subsequence of the previous result. */
  lemma RaiseMinimumMonotone(s: seq<Earthquake>, f: FilterState, m: real)
    requires m >= f.minMagnitude
    ensures IsSubsequence(Filter(s, f.(minMagnitude := m)), Filter(s, f))
  {
    RaiseMinimumRefilters(s, f, m);
  }

  /** The search is case-insensitive: two terms that lower-case alike select
      the same events. */
  lemma {:induction false} SearchCaseInsensitive(s: seq<Earthquake>, f: FilterState, term: string)
    requires Lower(term) == Lower(f.searchTerm)
    ensures Filter(s, f.(searchTerm := term)) == Filter(s, f)
    decreases |s|
  {
    if s != [] {
      SearchCaseInsensitive(s[1..], f, term);
      assert term == [] <==> f.searchTerm == [];
    }
  }

  lemma LowerRidgecrest()
    ensures Lower("10km NW of Ridgecrest, CA") == "10km nw of ridgecrest, ca"
  {
  }

  lemma LowerNorthernCalifornia()
    ensures Lower("Northern California") == "northern california"
    ensures Lower("california") == "california"
  {
  }

  lemma RidgecrestLacksCalifornia()
    ensures !Contains("10km nw of ridgecrest, ca", "california")
  {
    var p: string := "10km nw of ridgecrest, ca";
    assert forall i :: 0 <= i <= |p| - 10 ==> p[i] != 'c';
    FirstCharAbsent(p, "california");
  }

  lemma NorthernHasCalifornia()
    ensures Contains("northern california", "california")
  {
    var p: string := "northern california";
    assert OccursAt(p, "california", 9);
    ContainsIffOccurs(p, "california");
  }

  /** The search of the worked example: "california" does not occur in
      "10km NW of Ridgecrest, CA" but does occur, ignoring case, in
      "Northern California". */
  lemma CaliforniaSearch(e1: Earthquake, e2: Earthquake)
    requires e1.place == "10km NW of Ridgecrest, CA"
    requires e2.place == "Northern California"
    ensures !SearchTest(e1, FilterState(0.0, None, "california"))
    ensures SearchTest(e2, FilterState(0.0, None, "california"))
  {
    LowerRidgecrest();
    LowerNorthernCalifornia();
    RidgecrestLacksCalifornia();
    NorthernHasCalifornia();
    ContainsIffOccurs(Lower(e1.place), Lower("california"));
    ContainsIffOccurs(Lower(e2.place), Lower("california"));
  }

  /** With the default magnitude bound and no depth bound, the example keeps
      the Northern California event and drops the Ridgecrest one. */
  lemma CaliforniaExample(e1: Earthquake, e2: Earthquake)
    requires e1.place == "10km NW of Ridgecrest, CA"
    requires e2.place == "Northern California"
    requires e1.mag >= 0.0 && e2.mag >= 0.0
    ensures Filter([e1, e2], FilterState(0.0, None, "california")) == [e2]
  {
    var f := FilterState(0.0, None, "california");
    CaliforniaSearch(e1, e2);
    MatchesIffAllTests(e1, f);
    MatchesIffAllTests(e2, f);
    assert [e1, e2][1..] == [e2];
    assert [e2][1..] == [];
  }
}

=== FILE: legend.dfy ===
/**
  The magnitude scale legend (src/components/Legend.tsx): a fixed table of
  eight rows, strongest bucket first, each with a range text, a colour and a
  label. The table is shown beside the map, so its colours must be the ones
  `getMagnitudeColor` gives to the magnitudes of each row's range.
 */
module Legend {
  import opened Types
  import opened Text
  import opened EarthquakeUtils

  /** One legend row; `caption` is the source's `label` field (a Dafny keyword). */
  datatype Entry = Entry(range: string, color: string, caption: string)

  const MagnitudeRanges: seq<Entry> := [
    Entry("7.0+", "#b91c1c", "Major"),
    Entry("6.0-6.9", "#dc2626", "Strong"),
    Entry("5.0-5.9", "#ea580c", "Moderate"),
    Entry("4.0-4.9", "#f97316", "Light"),
    Entry("3.0-3.9", "#fb923c", "Minor"),
    Entry("2.0-2.9", "#fbbf24", "Very Minor"),
    Entry("1.0-1.9", "#a3e635", "Micro"),
    Entry("<1.0", "#22c55e", "Ultra Micro")
  ]

  /** The magnitudes bucket `7 - k` covers, the bucket of row `k` in a
      table ordered strongest first: [7 - k, 8 - k), open below for the last
      row and open above for the first. */
  ghost predicate InBucketOfRow(k: nat, m: real)
  {
    && (k == 0 || m < (8 - k) as real)
    && (k == |MagnitudeRanges| - 1 || (7 - k) as real <= m)
  }

  /** The value of a one-decimal text "d.t". */
  function DecimalValue(t: string): (v: Option<real>)
    ensures v.Some? ==> |t| == 3 && 0.0 <= v.value < 10.0
  {
    if |t| == 3 && IsDigit(t[0]) && t[1] == '.' && IsDigit(t[2]) then
      Some((t[0] as int - '0' as int) as real + (t[2] as int - '0' as int) as real / 10.0)
    else None
  }

  /** The magnitudes a range text names: "<a" is below a, "a+" is a and
      above, and "a-b" runs from a up to, not including, b + 0.1, the next
      value at one decimal, so "6.0-6.9" covers 6.95 too. Any other text
      names nothing. */
  ghost predicate InRangeText(r: string, m: real)
  {
    if |r| == 4 && r[0] == '<' then
      DecimalValue(r[1..]).Some? && m < DecimalValue(r[1..]).value
    else if |r| == 4 && r[3] == '+' then
      DecimalValue(r[..3]).Some? && DecimalValue(r[..3]).value <= m
    else if |r| == 7 && r[3] == '-' then
      && DecimalValue(r[..3]).Some? && DecimalValue(r[4..]).Some?
      && DecimalValue(r[..3]).value <= m < DecimalValue(r[4..]).value + 0.1
    else false
  }

  /** The range text of each row names exactly the magnitudes of the
      row's bucket. */
  lemma RangeTextIsBucket(k: nat, m: real)
    requires k < |MagnitudeRanges|
    ensures InRangeText(MagnitudeRanges[k].range, m) <==> InBucketOfRow(k, m)
  {
    var r := MagnitudeRanges[k].range;
    if k == 0 {
      assert r[..3] == "7.0";
    } else if k == 7 {
      assert r[1..] == "1.0";
    } else {
      assert r[..3] == [DigitChar(7 - k), '.', '0'];
      assert r[4..] == [DigitChar(7 - k), '.', '9'];
    }
  }

  /** Every magnitude falls in exactly one row's range text, the row of its
      bucket, and the row's colour is the colour the map and the list use
      for it. */
  lemma {:induction false} RowOfMagnitude(m: real) returns (k: nat)
    ensures k < |MagnitudeRanges|
    ensures InRangeText(MagnitudeRanges[k].range, m)
    ensures k == 7 - Bucket(m)
    ensures MagnitudeRanges[k].color == MagnitudeColor(m)
    ensures forall j :: 0 <= j < |MagnitudeRanges| && InRangeText(MagnitudeRanges[j].range, m) ==> j == k
  {
    k := 7 - Bucket(m);
    RangeTextIsBucket(k, m);
    forall j | 0 <= j < |MagnitudeRanges| && InRangeText(MagnitudeRanges[j].range, m)
      ensures j == k
    {
      RangeTextIsBucket(j, m);
    }
  }

  /** Each row's colour is `getMagnitudeColor` of every magnitude its range
      text names. */
  lemma LegendAgreesWithColor(k: nat, m: real)
    requires k < |MagnitudeRanges|
    requires InRangeText(MagnitudeRanges[k].range, m)
    ensures MagnitudeRanges[k].color == MagnitudeColor(m)
  {
    RangeTextIsBucket(k, m);
    BucketUnique(m, 7 - k);
  }

  /** The rows run from the strongest bucket to the weakest: row `k` holds
      the palette colour of bucket 7 - k. */
  lemma LegendOrderedStrongestFirst()
    ensures |MagnitudeRanges| == |Palette| == 8
    ensures forall k :: 0 <= k < |MagnitudeRanges| ==> MagnitudeRanges[k].color == Palette[7 - k]
  {
  }

  /** Colours are pairwise distinct, so a colour names one row. */
  lemma ColorsDistinct()
    ensures forall i, j :: 0 <= i < j < |MagnitudeRanges| ==> MagnitudeRanges[i].color != MagnitudeRanges[j].color
  {
  }

  /** Range texts are pairwise distinct, as their use as list keys needs. */
  lemma RangesDistinct()
    ensures forall i, j :: 0 <= i < j < |MagnitudeRanges| ==> MagnitudeRanges[i].range != MagnitudeRanges[j].range
  {
  }
}

=== FILE: sidebar.dfy ===
/**
  The sidebar's logic (src/components/Sidebar.tsx): the list is a copy of
  the filtered events sorted in descending order of time or magnitude by
  `Array.prototype.sort`, which section 23.1.3.30 of ECMA-262 (2023 edition;
  stable since the 2019 edition) requires to be stable; the two filter
  inputs each rewrite one field of the criteria; and the list area shows a
  spinner, an empty notice, or one row per sorted event.
 */
module Sidebar {
  import opened Types
  import opened EarthquakeUtils
  import opened Text

  datatype SortKey = ByTime | ByMagnitude

  /** The sidebar starts sorted by time. */
  const DefaultSortKey: SortKey := ByTime

  /** The value the comparator subtracts: `properties.time` or `properties.mag`. */
  function Key(e: Earthquake, k: SortKey): real
  {
    match k
    case ByTime => e.time as real
    case ByMagnitude => e.mag
  }

  /** Descending order: no event is followed by one with a larger key. */
  ghost predicate NonIncreasing(s: seq<Earthquake>, k: SortKey)
  {
    forall i, j :: 0 <= i < j < |s| ==> Key(s[i], k) >= Key(s[j], k)
  }

  /** The events of `s` whose key is `v`, in the order `s` has them. A sort
      is stable when it leaves every such run of equal keys as it was. */
  function WithKey(s: seq<Earthquake>, k: SortKey, v: real): seq<Earthquake>
    decreases |s|
  {
    if s == [] then []
    else (if Key(s[0], k) == v then [s[0]] else []) + WithKey(s[1..], k, v)
  }

  lemma {:induction false} WithKeyMember(s: seq<Earthquake>, k: SortKey, v: real, x: Earthquake)
    ensures x in WithKey(s, k, v) <==> x in s && Key(x, k) == v
    decreases |s|
  {
    if s != [] {
      WithKeyMember(s[1..], k, v, x);
      assert s == [s[0]] + s[1..];
    }
  }

  /** A key at least every key of `t` and the key of `e` bounds every key
      of any rearrangement of `t` plus `e`. */
  lemma {:induction false} BoundsRearrangement(h: Earthquake, e: Earthquake, t: seq<Earthquake>, rest: seq<Earthquake>, k: SortKey)
    requires forall i :: 0 <= i < |t| ==> Key(h, k) >= Key(t[i], k)
    requires Key(h, k) >= Key(e, k)
    requires multiset(rest) == multiset(t) + multiset{e}
    ensures forall i :: 0 <= i < |rest| ==> Key(h, k) >= Key(rest[i], k)
  {
    forall i | 0 <= i < |rest|
      ensures Key(h, k) >= Key(rest[i], k)
    {
      assert rest[i] in multiset(rest);
      if rest[i] != e {
        assert rest[i] in multiset(t);
        var j :| 0 <= j < |t| && t[j] == rest[i];
      }
    }
  }

  /** Inserts `e` into a descending list in front of the first event whose
      key is not larger: after every larger key, before every equal one. */
  function Insert(e: Earthquake, s: seq<Earthquake>, k: SortKey): (r: seq<Earthquake>)
    requires NonIncreasing(s, k)
    ensures NonIncreasing(r, k)
    ensures multiset(r) == multiset(s) + multiset{e}
    decreases |s|
  {
    if s == [] || Key(e, k) >= Key(s[0], k) then [e] + s
    else
      var rest := Insert(e, s[1..], k);
      assert s == [s[0]] + s[1..];
      BoundsRearrangement(s[0], e, s[1..], rest, k);
      [s[0]] + rest
  }

  /** Inserting `e` adds it at the front of its run of equal keys and
      leaves every other run as it was. */
  lemma {:induction false} InsertWithKey(e: Earthquake, s: seq<Earthquake>, k: SortKey, v: real)
    requires NonIncreasing(s, k)
    ensures WithKey(Insert(e, s, k), k, v) == if Key(e, k) == v then [e] + WithKey(s, k, v) else WithKey(s, k, v)
    decreases |s|
  {
    if s == [] || Key(e, k) >= Key(s[0], k) {
      assert ([e] + s)[1..] == s;
    } else {
      var rest := Insert(e, s[1..], k);
      InsertWithKey(e, s[1..], k, v);
      assert ([s[0]] + rest)[1..] == rest;
    }
  }

  /** `[...earthquakes].sort(...)` with the comparator `b.key - a.key`: a
      sort into descending order of the key that loses and adds nothing. The
      input is a value, so sorting a copy leaves it as it was. */
  function SortBy(s: seq<Earthquake>, k: SortKey): (r: seq<Earthquake>)
    ensures NonIncreasing(r, k)
    ensures multiset(r) == multiset(s)
    decreases |s|
  {
    if s == [] then []
    else
      assert s == [s[0]] + s[1..];
      Insert(s[0], SortBy(s[1..], k), k)
  }

  /** The sort is stable: the events of every key keep their input order. */
  lemma {:induction false} SortByStable(s: seq<Earthquake>, k: SortKey, v: real)
    ensures WithKey(SortBy(s, k), k, v) == WithKey(s, k, v)
    decreases |s|
  {
    if s != [] {
      SortByStable(s[1..], k, v);
      InsertWithKey(s[0], SortBy(s[1..], k), k, v);
    }
  }

  /** Stability and order determine the result completely: two descending
      lists with the same runs of equal keys are the same list. */
  lemma {:induction false} DescendingStableUnique(r1: seq<Earthquake>, r2: seq<Earthquake>, k: SortKey)
    requires NonIncreasing(r1, k) && NonIncreasing(r2, k)
    requires forall v :: WithKey(r1, k, v) == WithKey(r2, k, v)
    ensures r1 == r2
    decreases |r1|
  {
    if r2 != [] {
      WithKeyMember(r2, k, Key(r2[0], k), r2[0]);
      WithKeyMember(r1, k, Key(r2[0], k), r2[0]);
    }
    if r1 != [] {
      WithKeyMember(r1, k, Key(r1[0], k), r1[0]);
      WithKeyMember(r2, k, Key(r1[0], k), r1[0]);
    }
    if r1 != [] {
      var a, b := r1[0], r2[0];
      assert Key(a, k) == Key(b, k) by {
        var i :| 0 <= i < |r1| && r1[i] == b;
        var j :| 0 <= j < |r2| && r2[j] == a;
        assert i == 0 || Key(a, k) >= Key(b, k);
        assert j == 0 || Key(b, k) >= Key(a, k);
      }
      var t1, t2 := r1[1..], r2[1..];
      assert a == b by {
        assert WithKey(r1, k, Key(a, k)) == [a] + WithKey(t1, k, Key(a, k));
        assert WithKey(r2, k, Key(a, k)) == [b] + WithKey(t2, k, Key(a, k));
        assert WithKey(r1, k, Key(a, k))[0] == a;
      }
      forall v
        ensures WithKey(t1, k, v) == WithKey(t2, k, v)
      {
        assert WithKey(r1, k, v) == (if Key(a, k) == v then [a] else []) + WithKey(t1, k, v);
        assert WithKey(r2, k, v) == (if Key(a, k) == v then [a] else []) + WithKey(t2, k, v);
        assert WithKey(r1, k, v) == WithKey(r2, k, v);
        if Key(a, k) == v {
          assert WithKey(t1, k, v) == WithKey(r1, k, v)[1..];
          assert WithKey(t2, k, v) == WithKey(r2, k, v)[1..];
        } else {
          assert WithKey(t1, k, v) == WithKey(r1, k, v);
          assert WithKey(t2, k, v) == WithKey(r2, k, v);
        }
      }
      DescendingStableUnique(t1, t2, k);
      assert r1 == [a] + t1;
      assert r2 == [a] + t2;
    }
  }

  /** The model's sort is the one the comparator and stability demand: any
      descending list that keeps every run of equal keys in input order is it. */
  lemma SortByIsTheStableSort(s: seq<Earthquake>, k: SortKey, r: seq<Earthquake>)
    requires NonIncreasing(r, k)
    requires forall v :: WithKey(r, k, v) == WithKey(s, k, v)
    ensures r == SortBy(s, k)
  {
    forall v
      ensures WithKey(r, k, v) == WithKey(SortBy(s, k), k, v)
    {
      SortByStable(s, k, v);
    }
    DescendingStableUnique(r, SortBy(s, k), k);
  }

  /** The sorted list holds exactly the events of the input. */
  lemma SortByMembers(s: seq<Earthquake>, k: SortKey, x: Earthquake)
    ensures x in SortBy(s, k) <==> x in s
  {
    assert x in SortBy(s, k) <==> x in multiset(SortBy(s, k));
    assert x in s <==> x in multiset(s);
  }

  // The two filter inputs of the sidebar.

  /** The search box's `onChange`: `{ ...filters, searchTerm: value }`. */
  function SearchChanged(f: FilterState, text: string): (r: FilterState)
    ensures r.searchTerm == text
    ensures r.minMagnitude == f.minMagnitude && r.maxDepth == f.maxDepth
  {
    f.(searchTerm := text)
  }

  /** The slider's `onChange`: `{ ...filters, minMagnitude: parseFloat(value) }`,
      with the parsed value as the parameter. */
  function MinMagnitudeChanged(f: FilterState, value: real): (r: FilterState)
    ensures r.minMagnitude == value
    ensures r.searchTerm == f.searchTerm && r.maxDepth == f.maxDepth
  {
    f.(minMagnitude := value)
  }

  /** The refresh button is disabled while a fetch is loading. */
  predicate RefreshEnabled(loading: bool)
  {
    !loading
  }

  /** The header line "Last updated: ..." appears only once a fetch succeeded,
      and shows how long ago that success was: the age can be read back from it. */
  function LastUpdatedText(lastUpdated: Option<int>, now: int): (r: Option<string>)
    ensures r.Some? <==> lastUpdated.Some?
    ensures lastUpdated.Some? ==> ParseAge(r.value) == Some(RelativeAge(now, lastUpdated.value))
    ensures lastUpdated.Some? && now - lastUpdated.value < MinuteMs ==> r == Some("Just now")
    ensures lastUpdated.Some? && now - lastUpdated.value >= MinuteMs ==> EndsWith(r.value, " ago")
  {
    match lastUpdated
    case None => None
    case Some(t) =>
      AgeTextRoundTrip(RelativeAge(now, t));
      Some(RelativeTime(now, t))
  }

  /** One list row: its key, colour, magnitude, age text, place and absolute depth. */
  datatype Row = Row(key: string, color: string, mag: real, age: string, place: string, depth: real)

  function RowOf(e: Earthquake, now: int): Row
  {
    Row(e.id, MagnitudeColor(e.mag), e.mag, RelativeTime(now, e.time), e.place, Abs(e.coordinates.depth))
  }

  function Rows(s: seq<Earthquake>, now: int): (r: seq<Row>)
    ensures |r| == |s|
    ensures forall i :: 0 <= i < |s| ==> r[i] == RowOf(s[i], now)
    ensures forall i :: 0 <= i < |s| ==> r[i].key == s[i].id
  {
    seq(|s|, i requires 0 <= i < |s| => RowOf(s[i], now))
  }

  datatype ListArea = Spinner | NoMatches | List(rows: seq<Row>)

  /** The list area: a spinner while loading with nothing to show, otherwise
      a notice when there is nothing to show, otherwise the sorted rows. */
  function ListView(earthquakes: seq<Earthquake>, loading: bool, sortBy: SortKey, now: int): (v: ListArea)
    ensures v == Spinner <==> loading && |earthquakes| == 0
    ensures v == NoMatches <==> !loading && |earthquakes| == 0
    ensures v.List? <==> |earthquakes| > 0
    ensures v.List? ==> |v.rows| == |earthquakes|
  {
    if loading && |earthquakes| == 0 then Spinner
    else if |earthquakes| == 0 then NoMatches
    else
      var sorted := SortBy(earthquakes, sortBy);
      assert |sorted| == |multiset(sorted)| == |multiset(earthquakes)| == |earthquakes|;
      List(Rows(sorted, now))
  }

  /** The list shows every event exactly as often as the input holds it,
      in descending order of the chosen key. */
  lemma ListRowsAreSortedEvents(earthquakes: seq<Earthquake>, loading: bool, sortBy: SortKey, now: int)
    requires |earthquakes| > 0
    ensures var v := ListView(earthquakes, loading, sortBy, now);
            var sorted := SortBy(earthquakes, sortBy);
            && v.List?
            && multiset(sorted) == multiset(earthquakes)
            && (forall i :: 0 <= i < |v.rows| ==> v.rows[i] == RowOf(sorted[i], now))
            && (sortBy == ByMagnitude ==> forall i, j :: 0 <= i < j < |v.rows| ==> v.rows[i].mag >= v.rows[j].mag)
  {
  }
}

=== FILE: text.dfy ===
/**
  String helpers the core relies on: ASCII `toLowerCase`, `includes`,
  suffix tests and the decimal rendering of a natural number that template
  literals produce for the integer counts of the relative-time text.
 */
module Text {

  /** ASCII lower-casing of one character; every other character is kept. */
  function LowerChar(c: char): char
  {
    if 'A' <= c <= 'Z' then (c as int - 'A' as int + 'a' as int) as char else c
  }

  /** `toLowerCase`, restricted to ASCII letters. */
  function Lower(s: string): (r: string)
    ensures |r| == |s|
    ensures forall i :: 0 <= i < |s| ==> r[i] == LowerChar(s[i])
  {
    seq(|s|, i requires 0 <= i < |s| => LowerChar(s[i]))
  }

  /** Lower-casing twice is lower-casing once. */
  lemma LowerIdempotent(s: string)
    ensures Lower(Lower(s)) == Lower(s)
  {
  }

  predicate IsPrefix(p: string, s: string)
  {
    |p| <= |s| && s[..|p|] == p
  }

  predicate EndsWith(s: string, suffix: string)
  {
    |suffix| <= |s| && s[|s| - |suffix|..] == suffix
  }

  /** `hay.includes(needle)`: `needle` occurs somewhere in `hay`. */
  predicate Contains(hay: string, needle: string)
    decreases |hay|
  {
    IsPrefix(needle, hay) || (|hay| > 0 && Contains(hay[1..], needle))
  }

  /** `needle` occurs in `hay` at offset `i`. */
  ghost predicate OccursAt(hay: string, needle: string, i: int)
  {
    0 <= i && i + |needle| <= |hay| && hay[i..i + |needle|] == needle
  }

  /** An occurrence at any offset makes `Contains` true. */
  lemma {:induction false} OccursImpliesContains(hay: string, needle: string, i: int)
    requires OccursAt(hay, needle, i)
    ensures Contains(hay, needle)
    decreases i
  {
    if i == 0 {
      assert hay[..|needle|] == hay[0..0 + |needle|];
    } else {
      assert hay[1..][i - 1..i - 1 + |needle|] == hay[i..i + |needle|];
      OccursImpliesContains(hay[1..], needle, i - 1);
    }
  }

  /** `Contains` means exactly: there is an offset at which `needle` occurs. */
  lemma {:induction false} ContainsIffOccurs(hay: string, needle: string)
    ensures Contains(hay, needle) <==> exists i :: OccursAt(hay, needle, i)
    decreases |hay|
  {
    if exists i :: OccursAt(hay, needle, i) {
      var i :| OccursAt(hay, needle, i);
      OccursImpliesContains(hay, needle, i);
    }
    if Contains(hay, needle) {
      if IsPrefix(needle, hay) {
        assert OccursAt(hay, needle, 0);
      } else {
        ContainsIffOccurs(hay[1..], needle);
        var i :| OccursAt(hay[1..], needle, i);
        assert hay[1..][i..i + |needle|] == hay[i + 1..i + 1 + |needle|];
        assert OccursAt(hay, needle, i + 1);
      }
    }
  }

  /** A non-empty needle whose first character appears at no offset where
      the needle would fit does not occur. */
  lemma {:induction false} FirstCharAbsent(hay: string, needle: string)
    requires |needle| > 0
    requires forall i :: 0 <= i <= |hay| - |needle| ==> hay[i] != needle[0]
    ensures !Contains(hay, needle)
    decreases |hay|
  {
    if |needle| <= |hay| {
      assert hay[..|needle|][0] != needle[0];
    }
    if |hay| > 0 {
      assert forall i :: 0 <= i <= |hay| - 1 - |needle| ==> hay[1..][i] == hay[i + 1];
      FirstCharAbsent(hay[1..], needle);
    }
  }

  predicate IsDigit(c: char)
  {
    '0' <= c <= '9'
  }

  predicate AllDigits(s: string)
  {
    forall i :: 0 <= i < |s| ==> IsDigit(s[i])
  }

  function DigitChar(d: nat): (c: char)
    requires d < 10
    ensures IsDigit(c)
    ensures c as int - '0' as int == d
  {
    ('0' as int + d) as char
  }

  /** The decimal text of `n`, as `${n}` renders a non-negative integer. */
  function NatToString(n: nat): (r: string)
    ensures |r| >= 1
    ensures AllDigits(r)
    ensures n > 0 ==> r[0] != '0'
    decreases n
  {
    if n < 10 then [DigitChar(n)] else NatToString(n / 10) + [DigitChar(n % 10)]
  }

  /** Reads a string of decimal digits back as a number. */
  function ParseNat(s: string): nat
    requires AllDigits(s)
    decreases |s|
  {
    if s == [] then 0
    else ParseNat(s[..|s| - 1]) * 10 + (s[|s| - 1] as int - '0' as int)
  }

  /** The decimal rendering loses nothing: parsing it gives the number back. */
  lemma {:induction false} ParseNatToString(n: nat)
    ensures ParseNat(NatToString(n)) == n
    decreases n
  {
    var r := NatToString(n);
    if n >= 10 {
      ParseNatToString(n / 10);
      assert r[..|r| - 1] == NatToString(n / 10);
    }
  }

  /** Different numbers have different decimal renderings. */
  lemma NatToStringInjective(m: nat, n: nat)
    requires NatToString(m) == NatToString(n)
    ensures m == n
  {
    ParseNatToString(m);
    ParseNatToString(n);
  }
}

=== FILE: types.dfy ===
/**
  The records the dashboard works on (src/types/earthquake.ts), reduced to the
  fields the core reads. Magnitudes, depths and coordinates are `real`; times
  are integer epoch milliseconds.
 */
module Types {

  /** A value that may be absent: TypeScript's `T | null` (or `undefined`). */
  datatype Option<+T> = None | Some(value: T)

  /** A GeoJSON position `[longitude, latitude, depth]`, longitude first. */
  datatype Position = Position(lng: real, lat: real, depth: real)

  /** One feature of the feed, stored verbatim: no field is validated. */
  datatype Earthquake = Earthquake(
    id: string,
    mag: real,
    place: string,
    time: int,
    url: string,
    coordinates: Position)

  /** The user's filter criteria; `maxDepth == None` means unbounded. */
  datatype FilterState = FilterState(
    minMagnitude: real,
    maxDepth: Option<real>,
    searchTerm: string)

  /** `Math.abs` on reals. */
  function Abs(x: real): (r: real)
    ensures r >= 0.0
    ensures r == x || r == -x
  {
    if x < 0.0 then -x else x
  }
}

=== FILE: use_earthquakes.dfy ===
/**
  The fetch lifecycle (src/hooks/useEarthquakes.ts) as a state machine over
  `(earthquakes, loading, error, lastUpdated)`. A fetch begins by setting
  `loading` and clearing `error`; it completes, in one atomic step, with the
  response's features or with a caught value. The HTTP request, the clock
  and the interval timer are outside: responses, `now` and timer ticks are
  inputs. Overlapping fetches are not serialised; each completion applies in
  the order it arrives, and no stale response is discarded.
 */
module UseEarthquakes {
  import opened Types

  datatype FetchState = FetchState(
    earthquakes: seq<Earthquake>,
    loading: bool,
    error: Option<string>,
    lastUpdated: Option<int>)

  /** The four `useState` initial values. */
  const InitialState: FetchState := FetchState([], true, None, None)

  /** A caught value: an `Error` instance with its message, or anything else. */
  datatype Thrown = ErrorObject(message: string) | NonError

  /** How one request ends: the response's `features`, or a thrown value. */
  datatype Outcome = Fetched(features: seq<Earthquake>) | Threw(thrown: Thrown)

  const DefaultErrorMessage: string := "Failed to fetch earthquake data"

  /** The message of a thrown `Error`, or the fixed fallback text for any other thrown value. */
  function ErrorText(t: Thrown): string
  {
    match t
    case ErrorObject(message) => message
    case NonError => DefaultErrorMessage
  }

  /** The start of `fetchEarthquakes`: loading, no error, data and time kept. */
  function Begin(s: FetchState): (r: FetchState)
    ensures r.loading && r.error == None
    ensures r.earthquakes == s.earthquakes && r.lastUpdated == s.lastUpdated
  {
    s.(loading := true, error := None)
  }

  /** The end of `fetchEarthquakes`: the `try` body on a response, the
      `catch` body on a thrown value, then the `finally` body. */
  function Finish(s: FetchState, outcome: Outcome, now: int): (r: FetchState)
    ensures !r.loading
    ensures outcome.Fetched? ==>
              r.earthquakes == outcome.features && r.lastUpdated == Some(now) && r.error == s.error
    ensures outcome.Threw? ==>
              && r.earthquakes == s.earthquakes && r.lastUpdated == s.lastUpdated
              && r.error == Some(ErrorText(outcome.thrown))
    ensures outcome.Threw? && outcome.thrown.NonError? ==> r.error == Some(DefaultErrorMessage)
  {
    match outcome
    case Fetched(features) => s.(earthquakes := features, lastUpdated := Some(now), loading := false)
    case Threw(t) => s.(error := Some(ErrorText(t)), loading := false)
  }

  /** The hook's observable state, its polling timer (the interval of the
      live `setInterval`, if any), the fetches still in flight, and the
      number of fetches started so far. */
  datatype Hook = Hook(state: FetchState, timer: Option<int>, inFlight: nat, started: nat)

  /** The polling effect: a timer exists only for a truthy, positive interval. */
  function PollingTimer(interval: Option<int>): (t: Option<int>)
    ensures t.Some? <==> interval.Some? && interval.value > 0
    ensures t.Some? ==> t == interval
  {
    if interval.Some? && interval.value > 0 then interval else None
  }

  /** Starting one fetch. */
  function StartFetch(h: Hook): (r: Hook)
    ensures r.state == Begin(h.state) && r.timer == h.timer
    ensures r.inFlight == h.inFlight + 1 && r.started == h.started + 1
  {
    Hook(Begin(h.state), h.timer, h.inFlight + 1, h.started + 1)
  }

  /** Mounting: the mount effect starts one fetch, and the polling effect
      creates a timer for a positive interval. */
  function Mount(interval: Option<int>): (h: Hook)
    ensures h.started == 1 && h.inFlight == 1
    ensures h.state == FetchState([], true, None, None)
    ensures h.timer.Some? <==> interval.Some? && interval.value > 0
  {
    StartFetch(Hook(InitialState, PollingTimer(interval), 0, 0))
  }

  datatype HookEvent =
    | Refresh                         // `refresh()` called by the page
    | Tick                            // the interval timer fires
    | IntervalChanged(interval: Option<int>)  // the hook's argument changes
    | Settled(outcome: Outcome, now: int)     // an in-flight request completes

  /** One event. A tick without a timer cannot happen and changes nothing;
      a completion needs a fetch in flight. Changing the interval clears the
      old timer and creates the new one, if any. */
  function HookStep(h: Hook, ev: HookEvent): (r: Hook)
    ensures ev.Refresh? ==> r.state.loading && r.state.error == None && r.started == h.started + 1
    ensures ev.Tick? ==> (r.started == h.started + 1 <==> h.timer.Some?) && r.started <= h.started + 1
    ensures ev.Settled? && h.inFlight > 0 ==> !r.state.loading && r.inFlight + 1 == h.inFlight
    ensures ev.Settled? && h.inFlight == 0 ==> r == h
    ensures !ev.IntervalChanged? ==> r.timer == h.timer
    ensures !ev.Settled? ==> r.state.earthquakes == h.state.earthquakes && r.state.lastUpdated == h.state.lastUpdated
  {
    match ev
    case Refresh => StartFetch(h)
    case Tick => if h.timer.Some? then StartFetch(h) else h
    case IntervalChanged(interval) => h.(timer := PollingTimer(interval))
    case Settled(outcome, now) =>
      if h.inFlight == 0 then h
      else h.(state := Finish(h.state, outcome, now), inFlight := h.inFlight - 1)
  }

  /** What holds in every state the hook reaches from mounting: it shows a
      spinner only while a fetch is in flight, never an error together with
      a spinner, and no data before a first success. */
  ghost predicate Invariant(h: Hook)
  {
    && (h.state.loading ==> h.inFlight > 0)
    && (h.state.error.Some? ==> !h.state.loading)
    && (h.state.lastUpdated.None? ==> h.state.earthquakes == [])
    && h.inFlight <= h.started
  }

  lemma MountEstablishesInvariant(interval: Option<int>)
    ensures Invariant(Mount(interval))
  {
  }

  lemma HookStepPreservesInvariant(h: Hook, ev: HookEvent)
    requires Invariant(h)
    ensures Invariant(HookStep(h, ev))
  {
  }

  /** A new interval replaces the timer whatever it was, and touches
      nothing else. */
  lemma IntervalChangeReplacesTimer(h: Hook, interval: Option<int>)
    ensures var r := HookStep(h, IntervalChanged(interval));
            && (r.timer.Some? <==> interval.Some? && interval.value > 0)
            && (r.timer.Some? ==> r.timer == interval)
            && r.state == h.state && r.inFlight == h.inFlight && r.started == h.started
  {
  }

  /** A failure keeps the events and the time of the last success. */
  lemma FailureKeepsData(h: Hook, t: Thrown, now: int)
    requires h.inFlight > 0
    ensures var r := HookStep(h, Settled(Threw(t), now));
            r.state.earthquakes == h.state.earthquakes && r.state.lastUpdated == h.state.lastUpdated
            && r.state.error == Some(ErrorText(t)) && !r.state.loading
  {
  }

  /** Of two overlapping successes, the one completing last wins. */
  lemma LastCompletionWins(h: Hook, a: seq<Earthquake>, t1: int, b: seq<Earthquake>, t2: int)
    requires h.inFlight >= 2
    ensures var r := HookStep(HookStep(h, Settled(Fetched(a), t1)), Settled(Fetched(b), t2));
            r.state.earthquakes == b && r.state.lastUpdated == Some(t2)
  {
  }

  /** With two fetches in flight, the first completion already clears
      `loading`, while the second request is still pending. */
  lemma OverlapClearsLoadingEarly(features: seq<Earthquake>, now: int)
    ensures var h := HookStep(HookStep(Mount(None), Refresh), Settled(Fetched(features), now));
            !h.state.loading && h.inFlight == 1
  {
  }
}
